=== FILE: README.md ===
# artistic-photo-app: a Dafny model of the draft, the error handlers and the screen flow

This project models the decision logic of a React Native app. The app turns a
photo, a description or a theme into an "artistic" image in one of 35 catalog
styles. The model covers four parts.

- **Draft persistence** (`app/utils/storage.js`). AsyncStorage is a string map
  plus a set of keys whose calls throw. Saving, reading and clearing the
  three-key draft (photo URI, style name, style image) are modelled with their
  partial-write and failure behaviour.
- **Error classification** (`app/utils/errorHandling.js`). The error classes
  form one datatype, and the three handlers are total functions from it to
  `{title, message, action}`.
- **The legacy generate screen** (`app/screens/StyleSelectorScreen.js`). This
  covers:
  - ordered validation;
  - prompt composition per start type;
  - the request body;
  - classification of the response;
  - the `disabled` predicate.
- **The expo-router flow**. The screens are `app/home.js`, `app/style-selector.js`,
  `app/screens/UploadPhotoScreen.js` and `app/screens/DescriptionScreen.js`.
  - Each handler is a function from the screen's parameters to an action: no
    action, an alert, a push, or a storage checkpoint followed by a push.
  - The style preview travels between screens as a string. The model pairs
    its encoder and decoder:
    - the encoder is `typeof image === 'string' ? image : JSON.stringify(image)`;
    - the decoder is `JSON.parse`, falling back to `{uri}`.
  - `JSON.parse` is modelled by a recogniser for the JSON grammar of RFC 8259.
  - `encodeURIComponent` follows section 18.2.6.5 of ECMA-262, 8th edition.
  - Module `Flow` composes the four screens into one state machine over
    (screen, store).

The legacy screen and the expo-router screens are separate code paths and
separate modules (`LegacySelector` versus `Home`, `StyleSelector`,
`UploadPhoto`, `Description`, `Flow`).

JavaScript values are modelled as follows (module `Js`):

- A string that may be null or undefined is an `Option<string>`.
- `Truthy` is JavaScript truthiness on such a value: `None` and `""` are falsy.
- A route parameter passed as null or undefined reads back like a missing one
  (`Router.Arg`).

The legacy screen has two completeness rules for generating:

- the button's `disabled` binding (app/screens/StyleSelectorScreen.js:257-259),
  which demands a description in every non-photo mode;
- `handleGenerate`'s validation (app/screens/StyleSelectorScreen.js:126-137),
  which demands one only in description mode.

`LegacySelector.EnabledIsReady` relates the two.

Other behaviour of the code that the model keeps:

- `DescriptionScreen.handleGenerate` validates nothing and only logs.
- The home screen continues to `/screens/DescriptionScreen`, not to `/description`.
- `app/style-selector.js` ignores the `startType` parameter that the home
  screen's description and theme buttons pass.

The model assumes a route table in which `/` mounts `app/home.js`,
`/upload-photo` the upload screen, `/style-selector` the style selector, and
both `/description` and `/screens/DescriptionScreen` the description screen
(`Flow.Enter`). The route configuration is not part of this model; see
"## Left out".

## Model

| member | source | states |
|---|---|---|
| Storage.KeysDistinct | app/utils/storage.js:3-7 | the three storage keys are distinct, so writing one field never clobbers another |
| Storage.Save | app/utils/storage.js:15-34 | the result is ok iff no write to a truthy field's key throws; a falsy field leaves its stored value unchanged; keys outside the draft never change; the writes run photo, style, image and stop at the first throw: every write before it stays made, and the throwing key and every later key keep their old values; on success every truthy field is stored; the empty string is never stored |
| Storage.Get | app/utils/storage.js:40-59 | on a healthy store the draft is the three stored values, with null for keys never written; if any read throws, all three are null |
| Storage.Clear | app/utils/storage.js:64-74 | the result is ok iff no remove throws; on success exactly the three draft keys are gone; other keys are untouched |
| Storage.SaveThenGet | app/utils/storage.js:15-50 | saving three truthy values on a healthy store, then reading, returns exactly those values |
| Storage.SaveThenGetPartial | app/utils/storage.js:17-27 | after a successful save, a read returns the new value for every truthy field and the older stored value for every falsy one |
| Storage.ClearThenGet | app/utils/storage.js:64-69 | after a successful clear, a read yields all nulls |
| Storage.SaveIdempotent | app/utils/storage.js:15-34 | saving the same draft twice gives the same store and outcome as saving it once, on success and on failure |
| Errors.StatusCode | app/utils/errorHandling.js:9-14 | an API error carries the status code it was built with; the other kinds carry none |
| Errors.HandleImageError | app/utils/errorHandling.js:46-59 | an image-processing error keeps its own message; any other error gets the processing-failed message; the title is always 'Image Error' and the action always 'Try Again' |
| Errors.HandleAPIError | app/utils/errorHandling.js:62-75 | an API error gives 'API Error' with its own message; any other error gives 'Connection Error' with the network message; the action is always 'Retry' |
| Errors.HandleStyleError | app/utils/errorHandling.js:78-91 | a style-selection error keeps its message with the action 'Select Again'; any other error gives the generation-failed message with 'Try Again' |
| Errors.HandlersNonEmpty | app/utils/errorHandling.js:25-91 | every handler is total, and its title, message and action are non-empty whenever the error's own message is |
| Errors.HandlersIdentifyKind | app/utils/errorHandling.js:46-91 | the title 'API Error' and the action 'Select Again' appear exactly for their own error kinds; the image handler treats every other kind alike |
| Json.NatToStringParse | app/style-selector.js:105-107 | a canonical decimal text is the `JSON.stringify` of the number it parses to |
| Json.ParseNatToString | app/style-selector.js:105-107 | parsing the `JSON.stringify` of an asset number gives that number back |
| Json.NatTextIsJson | app/screens/DescriptionScreen.js:165-168 | the text of an asset number is valid JSON, so `JSON.parse` accepts it |
| UriEncoding.EncodeUriComponent | app/screens/DescriptionScreen.js:161-162 | the encoded style name contains only unreserved characters, '%' and uppercase hex digits, is no shorter than the input, and leaves an all-unreserved name unchanged |
| UriEncoding.EncodeChar | app/screens/DescriptionScreen.js:162 | an unreserved character stands for itself; any other character becomes one '%XX' escape, with uppercase hex, per UTF-8 byte |
| UriEncoding.DecodeEncode | app/screens/DescriptionScreen.js:162 | percent-decoding the encoded style name gives back exactly its UTF-8 bytes, so the encoding loses nothing |
| UriEncoding.EncodeAppend | app/screens/DescriptionScreen.js:162 | encoding a concatenation is the concatenation of the encodings |
| UriEncoding.EncodeTwoWords | app/screens/DescriptionScreen.js:162 | the placeholder text for 'Pop Art' encodes the space as %20 |
| Catalog.NamesDistinct | app/style-selector.js:37-83 | the 35 style names across all categories are pairwise distinct |
| Catalog.AllWellFormed | app/style-selector.js:37-83 | every catalog entry has a non-empty name, and every URL preview is a 150x150 placeholder URL |
| StyleImage.Serialize | app/style-selector.js:105-107 | a string preview passes through unchanged; an asset number becomes its canonical decimal text, which parses back to it; an absent preview stays absent |
| StyleImage.Decode | app/screens/DescriptionScreen.js:160-173 | a falsy parameter gives the 300x300 placeholder followed by the URL-encoded style name; a truthy one is taken as a URI exactly when it is not JSON; an asset source comes only from a canonical number text |
| StyleImage.RoundTripAsset | app/screens/DescriptionScreen.js:165-172 | decoding an encoded asset preview gives back that asset |
| StyleImage.RoundTripUrl | app/screens/DescriptionScreen.js:165-172 | decoding an encoded non-empty URL preview gives that URL iff the URL is not itself valid JSON |
| StyleImage.UrlThatLooksLikeAsset | app/screens/DescriptionScreen.js:165-168 | the JSON side-condition is needed: the URL string "7" decodes as asset 7 |
| StyleImage.SerializeStable | app/style-selector.js:105-107 | serialising a preview that is already a serialised string changes nothing |
| StyleImage.PlaceholderNotJson | app/screens/DescriptionScreen.js:165-172 | the catalog's placeholder URLs are not JSON, so they decode to themselves |
| StyleImage.CatalogRoundTrip | app/style-selector.js:37-83 | every catalog preview survives encoding and decoding unchanged |
| Home.Initial | app/home.js:10-14 | before hydration the saved draft is all nulls |
| Home.Hydrate | app/home.js:16-24 | after the mount effect the screen shows exactly the three stored fields; if any read throws, it shows nothing saved |
| Home.NavigateToUploadPhoto | app/home.js:26-41 | with a saved photo it goes to the style selector with the saved photo, style and image; otherwise it goes to the upload screen with no parameters |
| Home.NavigateToStyleSelector | app/home.js:43-48 | it goes to the style selector with exactly one parameter, the start type ('description' or 'theme' from the two entry buttons), and nothing from the saved draft |
| Home.ContinueWithPhoto | app/home.js:50-62 | it navigates iff a photo is saved, carrying the saved fields and returnTo 'start' to the description screen; otherwise it does nothing |
| Home.LabelMatchesAction | app/home.js:72-78 | the title reads 'Continue with Photo' exactly when pressing it navigates |
| Home.StartWithPhotoDoesNothing | app/home.js:72-78 | as written, on a first launch the button titled 'Start with a Photo' does nothing |
| Home.PrimaryAction | app/home.js:26-62 | the corrected first button always navigates: it continues with a saved photo, and otherwise opens the upload screen |
| Home.PrimaryActionMatchesLabel | app/home.js:72-78 | with the correction, each of the two titles corresponds to its destination |
| StyleSelector.Open | app/style-selector.js:87-90 | a selection exists iff existingStyle is truthy; it has that name and a preview that serialises back to existingStyleImage |
| StyleSelector.SelectStyle | app/style-selector.js:96-110 | a tile press selects that tile and goes at once to '/description' with the photo, the style's name and its serialised preview |
| StyleSelector.PhotoPress | app/style-selector.js:116-128 | as written, the style goes to the upload screen under existingStyle/existingStyleImage, and the names that screen reads are absent |
| StyleSelector.PhotoPressCorrected | app/style-selector.js:116-128 | corrected, 'Change photo' passes returnTo 'style-selector', the current photo, and the style under the names the upload screen reads (null when nothing is selected) |
| StyleSelector.Back | app/style-selector.js:130-154 | with a photo and a style, back returns to '/description' carrying both, without saving; otherwise it goes home, checkpointing first iff there is a photo |
| StyleSelector.BackLabelMatches | app/style-selector.js:130-154 | 'Back to Preview' is shown exactly when back returns to the preview; only the 'Back to Start' path checkpoints |
| StyleSelector.OneHighlight | app/style-selector.js:159 | at most one catalog tile is highlighted, since names are distinct |
| StyleSelector.SelectHighlights | app/style-selector.js:96-97 | after a tap exactly the tapped tile is highlighted |
| UploadPhoto.Open | app/screens/UploadPhotoScreen.js:11-12 | the initial photo is existingPhotoUri if truthy, and null otherwise |
| UploadPhoto.Picked | app/screens/UploadPhotoScreen.js:24-44 | a successful pick sets the photo to the first asset's URI; a cancel, a throw or an empty asset list leaves the screen as it was |
| UploadPhoto.TakePhoto | app/screens/UploadPhotoScreen.js:46-71 | a denied camera permission raises an alert and changes nothing; otherwise the capture is handled like a pick |
| UploadPhoto.Continue | app/screens/UploadPhotoScreen.js:73-99 | without a photo it raises the 'Photo Required' alert; with one it goes to '/description' iff editing from the preview with a style and image; otherwise to the selector with existingStyle and existingStyleImage |
| UploadPhoto.BackToStart | app/screens/UploadPhotoScreen.js:101-107 | it checkpoints iff the photo is truthy, then goes home |
| UploadPhoto.Back | app/screens/UploadPhotoScreen.js:109-124 | in the edit flow it returns to the preview with the original photo; otherwise it goes home without saving |
| UploadPhoto.BackLabelMatches | app/screens/UploadPhotoScreen.js:110-163 | 'Back to Preview' is shown exactly when back returns to the preview |
| UploadPhoto.BackIgnoresPick | app/screens/UploadPhotoScreen.js:109-124 | back discards any photo picked on the screen |
| Description.StylePress | app/screens/DescriptionScreen.js:83-92 | 'Change style' goes to the selector carrying the photo, style and image unchanged |
| Description.PhotoPress | app/screens/DescriptionScreen.js:94-104 | 'Change photo' goes to the upload screen in edit mode, with the style fields unchanged and the photo as existingPhotoUri |
| Description.BackToStart | app/screens/DescriptionScreen.js:106-112 | it checkpoints the three fields iff the photo is truthy, and always goes home |
| Description.Generate | app/screens/DescriptionScreen.js:114-118 | generate neither validates nor navigates |
| Router.Perform | app/screens/DescriptionScreen.js:106-112 | only a push or a checkpoint navigates, always to its own target; the checkpoint's save is the only write, and a failed save still navigates |
| LegacySelector.StartTypeOf | app/screens/StyleSelectorScreen.js:83 | the start type defaults to 'photo' only when the route has no params |
| LegacySelector.Open | app/screens/StyleSelectorScreen.js:83-89 | the screen opens with the route's start type, no image, and empty description and style |
| LegacySelector.Title | app/screens/StyleSelectorScreen.js:93-100 | photo, description and theme map to their three titles; anything else maps to 'Select Style' |
| LegacySelector.SelectTile | app/screens/StyleSelectorScreen.js:188 | a tile press sets the style and nothing else |
| LegacySelector.PickImage | app/screens/StyleSelectorScreen.js:104-123 | a denied permission sets the upload-failed image error; a pick with assets sets the image and clears the error; a throw sets the processing error; a cancel changes nothing |
| LegacySelector.Validate | app/screens/StyleSelectorScreen.js:126-137 | validation passes iff the inputs are complete; the checks run in order (photo, then description, then style), each with its own error |
| LegacySelector.Prompt | app/screens/StyleSelectorScreen.js:142-149 | the prompt is empty exactly for an unknown start type; a photo prompt is the description, or 'A portrait' without one, followed by ' in <style> style'; a description prompt is the description followed by the same clause; a theme prompt is 'Generate a <style> style image based on the theme: ' followed by the description, or 'artistic creation' without one |
| LegacySelector.PromptMentions | app/screens/StyleSelectorScreen.js:142-149 | in each known mode the prompt contains the style, and contains the description whenever it is non-empty |
| LegacySelector.PromptPhotoExample | app/screens/StyleSelectorScreen.js:144 | photo mode without a description prompts "A portrait in … style" |
| LegacySelector.PromptDescriptionExample | app/screens/StyleSelectorScreen.js:146 | description mode prompts "<description> in <style> style" |
| LegacySelector.PromptThemeFallback | app/screens/StyleSelectorScreen.js:148 | theme mode puts the style after "Generate a ", and ends with "artistic creation" when the description is empty |
| LegacySelector.PromptUnknownExample | app/screens/StyleSelectorScreen.js:142-149 | any other start type gives the empty prompt |
| LegacySelector.RequestFor | app/screens/StyleSelectorScreen.js:155-160 | the request carries the image only in photo mode, and always carries the style, the prompt and the start type |
| LegacySelector.Classify | app/screens/StyleSelectorScreen.js:163-174 | a non-ok status gives a server API error with that status; an ok response without an image URL gives an invalid-response API error; a transport failure gives a non-API error |
| LegacySelector.ClassifyExamples | app/screens/StyleSelectorScreen.js:163-174 | a 500 keeps its status code; a transport failure is shown as 'Connection Error' |
| LegacySelector.Submit | app/screens/StyleSelectorScreen.js:125-161 | a request is issued iff validation passes; on failure only the error changes; on success loading starts and the error clears |
| LegacySelector.Complete | app/screens/StyleSelectorScreen.js:163-177 | after any response loading is false; the result is either the generated URL or the handled API error |
| LegacySelector.Press | app/screens/StyleSelectorScreen.js:256-260 | a press on the disabled button does nothing |
| LegacySelector.Disabled | app/screens/StyleSelectorScreen.js:257-259 | the button is disabled exactly while loading, when validation would fail, or when a non-photo mode has no description |
| LegacySelector.EnabledIsReady | app/screens/StyleSelectorScreen.js:126-137 | an enabled button always passes validation; in theme mode with an empty description validation would pass, yet the button stays disabled |
| LegacySelector.NoDoubleSubmit | app/screens/StyleSelectorScreen.js:139 | while a request is in flight a second press sends nothing |
| LegacySelector.CompleteReenables | app/screens/StyleSelectorScreen.js:175-177 | after the response the button is enabled again for the same inputs |
| LegacySelector.ThemeFallbackUnreachable | app/screens/StyleSelectorScreen.js:148 | through the button, the theme prompt always uses the typed description, never the fallback |
| Flow.Enter | app/home.js:16-62 | a push mounts a screen iff its path is in the assumed route table; home shows exactly what storage holds; '/description' and '/screens/DescriptionScreen' mount the same screen on the same parameters |
| Flow.EnterIgnoresStore | app/home.js:16-24 | home is the only screen whose mount reads storage |
| Flow.Handle | app/home.js:72-94 | in both variants: every push goes to a mounted path; a checkpoint is taken only with a photo and only on the way home; only the upload screen and the selector change their own state without leaving |
| Flow.Step | app/screens/DescriptionScreen.js:106-112 | in both variants: a press changes storage only through a checkpoint and never stores ""; a press that navigates always lands on the screen for its path |
| Flow.VariantsAgree | app/home.js:72-94 | the two variants differ only in the home screen's first button and the selector's 'Change photo' |
| Flow.EntryButtons | app/home.js:86-94 | in both variants the description and theme buttons push the style selector with startType 'description' and 'theme' |
| Flow.ContinueButtonDisabled | app/screens/UploadPhotoScreen.js:232-234 | in both variants, 'Continue' on the upload screen without a photo does nothing, because the button is disabled |
| Flow.StepAnchored | app/utils/storage.js:15-34 | in both variants a press never leaves a style stored without a photo |
| Flow.RunPreservesStore | app/utils/storage.js:15-34 | in both variants, over any sequence of presses, the failing keys, the absence of stored empty strings and the photo-before-style invariant all persist |
| Flow.CheckpointResume | app/screens/DescriptionScreen.js:106-112 | in both variants, 'Back to Start' from a full preview followed by the home screen's first button returns to the same preview |
| Flow.CheckpointKeepsOlderStyle | app/style-selector.js:143-152 | in both variants a checkpoint with no style keeps an older stored style, which the next resume shows |
| Flow.PhotoPressAsWrittenDropsStyle | app/style-selector.js:116-128 | as written, 'Change photo' then 'Continue' reopens the selector with the same photo and no style |
| Flow.ChangePhotoKeepsStyle | app/screens/UploadPhotoScreen.js:73-95 | corrected, the same round trip keeps the style and preview, with the newly picked photo if there is one |
| Flow.EditPhotoBack | app/screens/UploadPhotoScreen.js:109-119 | in both variants, editing the photo from the preview and pressing back returns to the same preview, whatever was picked |
| Flow.EditPhotoContinue | app/screens/UploadPhotoScreen.js:74-84 | in both variants, editing the photo from the preview and continuing returns to the preview with the new photo and the same style |
| Flow.EditStyle | app/screens/DescriptionScreen.js:83-92 | in both variants, 'Change style' then a tile press returns to the preview with the tapped style, whose preview decodes to the catalog's own |
| Flow.FirstLaunchDoesNothingAsWritten | app/home.js:72 | as written, on a first launch the home screen's first button leaves the app exactly as it was |
| Flow.FirstLaunchStartsUpload | app/home.js:26-41 | corrected, on a first launch the first button opens an empty upload screen |

## Left out

- Rendering is not modelled: styles, animations, timers, keyboard listeners and the preview-size arithmetic are presentation and floating-point layout.
- The image picker, permission requests and `Image.getSize` are foreign calls. Only their outcomes are modelled, as `Picker.PickerResult` and a `granted` flag.
- `fetch` and the response body are network I/O. A response is modelled as a status plus whether `generatedImageUrl` is present, or a transport failure.
- The interleaving of `await`s is not modelled: each handler runs to completion before the next press.
- Hydration is not modelled separately from the mount. The home screen reads storage when it mounts (`Flow.Enter`), so a press before the read finishes is not modelled.
- `JSON.parse` yields a parsed value only for canonical number texts, the shape asset references take. Any other JSON text is kept as its text (`StyleImage.JsonSource`).
- `JSON.stringify` is modelled only for strings, which pass through, and asset numbers; numbers of 10^21 and above, which JavaScript prints in exponent form, are not modelled.
- `console.log` and `console.error` output is not modelled.
- `handleErrorAction` and the error display of the legacy screen only clear or show the error.
- The route configuration is not modelled: the route files serving `/`, `/upload-photo`, `/style-selector` and `/description` are not part of this model, and the table given above is assumed.
- The navigation stack is not modelled. Each push mounts a fresh screen, so the home screen's mount effect re-reads storage on every return home. The system back gesture and `router.back` are not modelled.
- UriEncoding.EncodeUriComponent: the URIError that `encodeURIComponent` throws on a lone surrogate is not modelled, because a Dafny `char` is a Unicode scalar value and cannot be a lone surrogate.
- `UploadPhoto.BackToStart` is modelled, but no button calls it, so `Flow` has no event for it.
- `StyleSelector.Open` keeps a string preview parameter as a string. The source does the same, so an asset preview that comes back through parameters is re-serialised as its text, and `StyleImage.SerializeStable` shows that nothing changes.
- Errors.HandlersNonEmpty: it assumes the error's own message is non-empty, because the source passes the message through and an empty one stays empty.
- LegacySelector.PromptThemeFallback: it states where the style and the fallback text sit in the theme prompt, rather than the whole literal prompt for one example style.

## Findings

| source | as written | input that shows it | evidently intended | confidence | as-written member | corrected member |
|---|---|---|---|---|---|---|
| app/style-selector.js:116-128 | 'Change photo' passes the style as `existingStyle`/`existingStyleImage`, but the upload screen reads `selectedStyle`/`styleImage` (app/screens/UploadPhotoScreen.js:11) | a selector with a photo and 'Anime' selected; press 'Change photo', then 'Continue': the selector reopens with no style | pass the style under the names the upload screen reads, so it comes back | high (not executed) | Flow.PhotoPressAsWrittenDropsStyle | Flow.ChangePhotoKeepsStyle |
| app/home.js:72 | the first button is bound to `handleContinueWithPhoto`, which does nothing without a saved photo; `navigateToUploadPhoto` is never bound | a first launch with empty storage: the button titled 'Start with a Photo' does nothing | without a saved photo, the button starts the upload flow | high (not executed) | Home.StartWithPhotoDoesNothing, Flow.FirstLaunchDoesNothingAsWritten | Home.PrimaryAction, Flow.FirstLaunchStartsUpload |

=== FILE: catalog.dfy ===
/** The fixed style catalog `stylesByCategory` (identical in
    app/style-selector.js and app/screens/StyleSelectorScreen.js). */
module Catalog {

  /** A style preview: a URL string, or a bundled `require()` asset, which
      at run time is an opaque module number. */
  datatype ImageRef = Url(url: string) | Asset(id: nat)

  datatype Entry = Entry(name: string, image: ImageRef)

  datatype Category = Category(title: string, entries: seq<Entry>)

  // The bundler's module numbers for the six bundled previews are not known
  // statically; any six distinct numbers stand for them.
  const CyberpunkAsset: nat := 1
  const SteampunkAsset: nat := 2
  const AnimeAsset: nat := 3
  const GhibliAsset: nat := 4
  const PixelArtAsset: nat := 5
  const CartoonNetworkAsset: nat := 6

  const PlaceholderBase: string := "https://via.placeholder.com/150x150?text="

  function Placeholder(text: string): ImageRef {
    Url(PlaceholderBase + text)
  }

  const PopCulture: seq<Entry> := [
    Entry("Cyberpunk", Asset(CyberpunkAsset)),
    Entry("Steampunk", Asset(SteampunkAsset)),
    Entry("Anime", Asset(AnimeAsset)),
    Entry("Studio Ghibli", Asset(GhibliAsset)),
    Entry("Pixel Art", Asset(PixelArtAsset)),
    Entry("Cartoon Network", Asset(CartoonNetworkAsset)),
    Entry("Tim Burton", Placeholder("Tim+Burton")),
    Entry("Pixar Style", Placeholder("Pixar+Style"))
  ]

  const TraditionalArt: seq<Entry> := [
    Entry("Watercolour", Placeholder("Watercolour")),
    Entry("Oil Painting", Placeholder("Oil+Painting")),
    Entry("Charcoal Sketch", Placeholder("Charcoal+Sketch")),
    Entry("Van Gogh", Placeholder("Van+Gogh")),
    Entry("Impressionist", Placeholder("Impressionist")),
    Entry("Cubism", Placeholder("Cubism")),
    Entry("Baroque", Placeholder("Baroque")),
    Entry("Renaissance", Placeholder("Renaissance"))
  ]

  const DigitalArt: seq<Entry> := [
    Entry("3D Render", Placeholder("3D+Render")),
    Entry("Digital Painting", Placeholder("Digital+Painting")),
    Entry("Voxel Art", Placeholder("Voxel+Art")),
    Entry("Game UI Art", Placeholder("Game+UI+Art")),
    Entry("Concept Art", Placeholder("Concept+Art")),
    Entry("Matte Painting", Placeholder("Matte+Painting")),
    Entry("Low-poly Art", Placeholder("Low+poly+Art"))
  ]

  const Photographic: seq<Entry> := [
    Entry("Studio Photography", Placeholder("Studio+Photography")),
    Entry("Portrait with Bokeh", Placeholder("Portrait+with+Bokeh")),
    Entry("Vintage Polaroid", Placeholder("Vintage+Polaroid")),
    Entry("Black and White Film", Placeholder("Black+and+White+Film")),
    Entry("Macro Shot", Placeholder("Macro+Shot")),
    Entry("Tilt-shift", Placeholder("Tilt+shift")),
    Entry("Fisheye Lens", Placeholder("Fisheye+Lens"))
  ]

  const ModernStyles: seq<Entry> := [
    Entry("Pop Art", Placeholder("Pop+Art")),
    Entry("Minimalist Flat Design", Placeholder("Minimalist+Flat+Design")),
    Entry("Abstract Expressionism", Placeholder("Abstract+Expressionism")),
    Entry("Synthwave", Placeholder("Synthwave")),
    Entry("Vaporwave", Placeholder("Vaporwave"))
  ]

  /** `stylesByCategory`, in its declaration order. */
  const StylesByCategory: seq<Category> := [
    Category("Pop Culture", PopCulture),
    Category("Traditional Art", TraditionalArt),
    Category("Digital Art", DigitalArt),
    Category("Photographic", Photographic),
    Category("Modern Styles", ModernStyles)
  ]

  /** Every tile, in display order. */
  const AllEntries: seq<Entry> := PopCulture + TraditionalArt + DigitalArt + Photographic + ModernStyles

  /** No two entries share a name. */
  predicate DistinctNames(es: seq<Entry>) {
    forall i, j :: 0 <= i < j < |es| ==> es[i].name != es[j].name
  }

  /** No entry of `a` shares a name with an entry of `b`. */
  predicate DisjointNames(a: seq<Entry>, b: seq<Entry>) {
    forall i, j :: 0 <= i < |a| && 0 <= j < |b| ==> a[i].name != b[j].name
  }

  lemma {:induction false} DistinctConcat(a: seq<Entry>, b: seq<Entry>)
    requires DistinctNames(a) && DistinctNames(b) && DisjointNames(a, b)
    ensures DistinctNames(a + b)
  {
    var ab := a + b;
    forall i, j | 0 <= i < j < |ab|
      ensures ab[i].name != ab[j].name
    {
      if j < |a| {
        assert ab[i] == a[i] && ab[j] == a[j];
      } else if i < |a| {
        assert ab[i] == a[i] && ab[j] == b[j - |a|];
      } else {
        assert ab[i] == b[i - |a|] && ab[j] == b[j - |a|];
      }
    }
  }

  lemma {:induction false} DisjointConcat(a: seq<Entry>, b: seq<Entry>, c: seq<Entry>)
    requires DisjointNames(a, c) && DisjointNames(b, c)
    ensures DisjointNames(a + b, c)
  {
    var ab := a + b;
    forall i, j | 0 <= i < |ab| && 0 <= j < |c|
      ensures ab[i].name != c[j].name
    {
      if i < |a| {
        assert ab[i] == a[i];
      } else {
        assert ab[i] == b[i - |a|];
      }
    }
  }

  lemma CategoriesDistinct()
    ensures DistinctNames(PopCulture) && DistinctNames(TraditionalArt) && DistinctNames(DigitalArt)
    ensures DistinctNames(Photographic) && DistinctNames(ModernStyles)
  {
  }

  lemma CategoriesDisjointFromModern()
    ensures DisjointNames(PopCulture, ModernStyles) && DisjointNames(TraditionalArt, ModernStyles)
    ensures DisjointNames(DigitalArt, ModernStyles) && DisjointNames(Photographic, ModernStyles)
  {
  }

  lemma CategoriesDisjointFromPhotographic()
    ensures DisjointNames(PopCulture, Photographic) && DisjointNames(TraditionalArt, Photographic)
    ensures DisjointNames(DigitalArt, Photographic)
  {
  }

  lemma CategoriesDisjointFromDigital()
    ensures DisjointNames(PopCulture, DigitalArt) && DisjointNames(TraditionalArt, DigitalArt)
    ensures DisjointNames(PopCulture, TraditionalArt)
  {
  }

  /** No two tiles share a name: the list keys and the selected-tile
      highlight, which both compare by name, single out one tile. */
  lemma NamesDistinct()
    ensures DistinctNames(AllEntries)
  {
    CategoriesDistinct();
    CategoriesDisjointFromModern();
    CategoriesDisjointFromPhotographic();
    CategoriesDisjointFromDigital();
    DistinctConcat(PopCulture, TraditionalArt);
    DisjointConcat(PopCulture, TraditionalArt, DigitalArt);
    DistinctConcat(PopCulture + TraditionalArt, DigitalArt);
    DisjointConcat(PopCulture, TraditionalArt, Photographic);
    DisjointConcat(PopCulture + TraditionalArt, DigitalArt, Photographic);
    DistinctConcat(PopCulture + TraditionalArt + DigitalArt, Photographic);
    DisjointConcat(PopCulture, TraditionalArt, ModernStyles);
    DisjointConcat(PopCulture + TraditionalArt, DigitalArt, ModernStyles);
    DisjointConcat(PopCulture + TraditionalArt + DigitalArt, Photographic, ModernStyles);
    DistinctConcat(PopCulture + TraditionalArt + DigitalArt + Photographic, ModernStyles);
  }

  /** An entry as every catalog tile has it: a non-empty name, and a URL
      preview that is a placeholder-service address. */
  predicate WellFormed(e: Entry) {
    e.name != "" && (e.image.Url? ==> PlaceholderBase <= e.image.url)
  }

  lemma {:induction false} AllWellFormed()
    ensures forall e :: e in AllEntries ==> WellFormed(e)
  {
    assert forall e :: e in PopCulture ==> WellFormed(e);
    assert forall e :: e in TraditionalArt ==> WellFormed(e);
    assert forall e :: e in DigitalArt ==> WellFormed(e);
    assert forall e :: e in Photographic ==> WellFormed(e);
    assert forall e :: e in ModernStyles ==> WellFormed(e);
  }
}

=== FILE: description.dfy ===
/** The preview screen (app/screens/DescriptionScreen.js): shows the photo
    and the style, lets either be changed, and goes back to start with a
    checkpoint. */
module Description {
  import opened Js
  import opened Storage
  import opened Router
  import opened StyleImage

  /** The parameters the screen reads; it keeps no other navigation state. */
  datatype State = State(photoUri: Option<string>, selectedStyle: Option<string>, styleImage: Option<string>)

  function Read(p: Params): State {
    State(Arg(p, "photoUri"), Arg(p, "selectedStyle"), Arg(p, "styleImage"))
  }

  /** `handleStylePress`: to the style selector with the draft unchanged. */
  function StylePress(d: State): (nav: Nav)
    ensures nav.path == SelectorPath
    ensures Arg(nav.params, "photoUri") == d.photoUri
    ensures Arg(nav.params, "existingStyle") == d.selectedStyle
    ensures Arg(nav.params, "existingStyleImage") == d.styleImage
  {
    Push(SelectorPath, map["photoUri" := d.photoUri,
                           "existingStyle" := d.selectedStyle,
                           "existingStyleImage" := d.styleImage])
  }

  /** `handlePhotoPress`: to the upload screen in edit mode. */
  function PhotoPress(d: State): (nav: Nav)
    ensures nav.path == UploadPath
    ensures Arg(nav.params, "returnTo") == Some("description")
    ensures Arg(nav.params, "selectedStyle") == d.selectedStyle
    ensures Arg(nav.params, "styleImage") == d.styleImage
    ensures Arg(nav.params, "existingPhotoUri") == d.photoUri
  {
    Push(UploadPath, map["returnTo" := Some("description"),
                         "selectedStyle" := d.selectedStyle,
                         "styleImage" := d.styleImage,
                         "existingPhotoUri" := d.photoUri])
  }

  /** `handleBackToStart`: checkpoint iff there is a photo, then home. */
  function BackToStart(d: State): (a: Action)
    ensures Truthy(d.photoUri) ==> a == SaveThenGo(Draft(d.photoUri, d.selectedStyle, d.styleImage), GoHome)
    ensures !Truthy(d.photoUri) ==> a == Go(GoHome)
  {
    if Truthy(d.photoUri) then SaveThenGo(Draft(d.photoUri, d.selectedStyle, d.styleImage), GoHome)
    else Go(GoHome)
  }

  /** `handleGenerate`: the description is optional, nothing is validated,
      and the handler only logs. */
  function Generate(d: State, description: string): (a: Action)
    ensures a == NoAction
  {
    NoAction
  }

  /** `getStyleImageSource()`. */
  function StyleImageSource(d: State): Source {
    Decode(d.styleImage, d.selectedStyle)
  }
}

=== FILE: errors.dfy ===
/** The app's error classes, its fixed messages, and the three handlers that
    turn an error into what the error display shows (app/utils/errorHandling.js). */
module Errors {
  import opened Js

  /** A thrown value: one of the three custom classes, or anything else
      (a TypeError from the network layer, a picker failure, ...). Only
      `APIError` carries a status code, and it may be left undefined. */
  datatype Error =
    | ImageProcessingError(message: string)
    | APIError(message: string, statusCode: Option<int>)
    | StyleSelectionError(message: string)
    | OtherError(message: string)

  /** What `ErrorDisplay` shows: a title, a message and one action label. */
  datatype ErrorInfo = ErrorInfo(title: string, message: string, action: string)

  // ERROR_MESSAGES.IMAGE
  const UploadFailed: string := "Failed to upload image. Please try again."
  const InvalidFormat: string := "Invalid image format. Please use JPG or PNG."
  const SizeTooLarge: string := "Image size too large. Please use an image under 10MB."
  const ProcessingFailed: string := "Failed to process image. Please try again."
  // ERROR_MESSAGES.API
  const NetworkError: string := "Network error. Please check your connection."
  const ServerError: string := "Server error. Please try again later."
  const Timeout: string := "Request timed out. Please try again."
  const InvalidResponse: string := "Invalid response from server."
  // ERROR_MESSAGES.STYLE
  const SelectionRequired: string := "Please select a style before generating."
  const InvalidStyle: string := "Invalid style selected."
  const GenerationFailed: string := "Failed to generate image with selected style."

  /** `error.statusCode`: defined only on an `APIError`, and then exactly the
      code it was constructed with. */
  function StatusCode(e: Error): (r: Option<int>)
    ensures r.Some? ==> e.APIError?
    ensures e.APIError? ==> r == e.statusCode
  {
    if e.APIError? then e.statusCode else None
  }

  /** `handleImageError`. */
  function HandleImageError(e: Error): (r: ErrorInfo)
    ensures r.title == "Image Error" && r.action == "Try Again"
    ensures e.ImageProcessingError? ==> r.message == e.message
    ensures !e.ImageProcessingError? ==> r.message == ProcessingFailed
  {
    match e
    case ImageProcessingError(m) => ErrorInfo("Image Error", m, "Try Again")
    case _ => ErrorInfo("Image Error", ProcessingFailed, "Try Again")
  }

  /** `handleAPIError`. */
  function HandleAPIError(e: Error): (r: ErrorInfo)
    ensures r.action == "Retry"
    ensures e.APIError? ==> r.title == "API Error" && r.message == e.message
    ensures !e.APIError? ==> r.title == "Connection Error" && r.message == NetworkError
  {
    match e
    case APIError(m, _) => ErrorInfo("API Error", m, "Retry")
    case _ => ErrorInfo("Connection Error", NetworkError, "Retry")
  }

  /** `handleStyleError`. */
  function HandleStyleError(e: Error): (r: ErrorInfo)
    ensures r.title == "Style Error"
    ensures e.StyleSelectionError? ==> r.message == e.message && r.action == "Select Again"
    ensures !e.StyleSelectionError? ==> r.message == GenerationFailed && r.action == "Try Again"
  {
    match e
    case StyleSelectionError(m) => ErrorInfo("Style Error", m, "Select Again")
    case _ => ErrorInfo("Style Error", GenerationFailed, "Try Again")
  }

  /** Every field of every handler's record is a non-empty string, provided
      the error's own message is (a JS `Error` built without a message has
      message ""). */
  lemma HandlersNonEmpty(e: Error)
    requires e.message != ""
    ensures var r := HandleImageError(e); r.title != "" && r.message != "" && r.action != ""
    ensures var r := HandleAPIError(e); r.title != "" && r.message != "" && r.action != ""
    ensures var r := HandleStyleError(e); r.title != "" && r.message != "" && r.action != ""
  {
  }

  /** The record tells the caller which branch was taken: the API title and
      the style action each identify their error class exactly, while the
      image handler's record only differs in its message. */
  lemma HandlersIdentifyKind(e: Error)
    ensures HandleAPIError(e).title == "API Error" <==> e.APIError?
    ensures HandleStyleError(e).action == "Select Again" <==> e.StyleSelectionError?
    ensures !e.ImageProcessingError? ==> HandleImageError(e) == HandleImageError(OtherError(""))
  {
  }
}

=== FILE: flow.dfy ===
/** The expo-router app as a whole: the screen on top, the draft in storage,
    and what each button press does to both. Every press is interpreted in
    one of two variants of the app, chosen by `corrected`: `false` is the
    code as written; `true` binds the home screen's first button to
    `Home.PrimaryAction` and the style selector's "Change photo" to
    `StyleSelector.PhotoPressCorrected`. The variants differ in nothing else
    (`VariantsAgree`). */
module Flow {
  import opened Js
  import opened Storage
  import opened Router
  import opened Picker
  import opened Catalog
  import opened StyleImage
  import Home
  import UploadPhoto
  import StyleSelector
  import Description

  /** The screen on top of the stack and its state. */
  datatype Screen =
    | AtHome(home: Home.State)
    | AtUpload(upload: UploadPhoto.State)
    | AtSelector(selector: StyleSelector.State)
    | AtDescription(description: Description.State)

  datatype App = App(screen: Screen, store: Store)

  /** The presses the screens respond to. */
  datatype Event =
    | PressPrimary                       // home: "Start with a Photo" / "Continue with Photo"
    | PressStartDescription              // home
    | PressStartTheme                    // home
    | PressPick(result: PickerResult)    // upload: choose from the library
    | PressTake(granted: bool, result: PickerResult)  // upload: camera
    | PressContinue                      // upload
    | PressBack                          // upload, style selector
    | PressTile(entry: Entry)            // style selector
    | PressChangePhoto                   // style selector, description
    | PressChangeStyle                   // description
    | PressBackToStart                   // description
    | PressGenerate(text: string)        // description

  /** Mounting the screen a push leads to; `None` for a path no screen is
      mounted at. Home re-reads storage on every mount. */
  function Enter(nav: Nav, st: Store): (s: Option<Screen>)
    ensures s.Some? <==> KnownPath(nav.path)
    // home shows exactly what storage holds at the moment of the push
    ensures nav.path == HomePath ==> s.Some? && s.value.AtHome? && s.value.home.saved == Get(st)
    // both description routes mount the same screen on the same parameters
    ensures nav.path == DescriptionPath || nav.path == DescriptionScreenPath ==>
              s == Some(AtDescription(Description.Read(nav.params)))
  {
    if nav.path == HomePath then Some(AtHome(Home.Hydrate(Home.Initial(), st)))
    else if nav.path == UploadPath then Some(AtUpload(UploadPhoto.Open(nav.params)))
    else if nav.path == SelectorPath then Some(AtSelector(StyleSelector.Open(nav.params)))
    else if nav.path == DescriptionPath || nav.path == DescriptionScreenPath then
      Some(AtDescription(Description.Read(nav.params)))
    else None
  }

  /** Home is the only screen that reads storage when it mounts. */
  lemma EnterIgnoresStore(nav: Nav, st1: Store, st2: Store)
    requires nav.path != HomePath
    ensures Enter(nav, st1) == Enter(nav, st2)
  {
  }

  /** A press on the current screen: the screen's own new state and the
      action its handler takes. */
  datatype Handled = Handled(screen: Screen, action: Action)

  function Handle(s: Screen, ev: Event, corrected: bool): (r: Handled)
    // every push goes to a path some screen is mounted at
    ensures r.action.Go? || r.action.SaveThenGo? ==> KnownPath(r.action.nav.path)
    // a checkpoint is only ever taken with a photo, and only on the way home
    ensures r.action.SaveThenGo? ==> Truthy(r.action.draft.photoUri) && r.action.nav == GoHome
    // only the upload screen and the selector change their own state without leaving
    ensures r.screen != s ==> s.AtUpload? || s.AtSelector?
  {
    match s
    case AtHome(h) =>
      (match ev
       case PressPrimary =>
         Handled(s, if corrected then Home.PrimaryAction(h) else Home.ContinueWithPhoto(h))
       case PressStartDescription => Handled(s, Go(Home.NavigateToStyleSelector("description")))
       case PressStartTheme => Handled(s, Go(Home.NavigateToStyleSelector("theme")))
       case _ => Handled(s, NoAction))
    case AtUpload(u) =>
      (match ev
       case PressPick(r) => Handled(AtUpload(UploadPhoto.Picked(u, r)), NoAction)
       case PressTake(granted, r) =>
         var t := UploadPhoto.TakePhoto(u, granted, r);
         Handled(AtUpload(t.state), t.action)
       // the button is disabled without a photo
       case PressContinue => Handled(s, if Truthy(u.photoUri) then UploadPhoto.Continue(u) else NoAction)
       case PressBack => Handled(s, UploadPhoto.Back(u))
       case _ => Handled(s, NoAction))
    case AtSelector(sel) =>
      (match ev
       case PressTile(e) =>
         if e in AllEntries then
           var r := StyleSelector.SelectStyle(sel, e);
           Handled(AtSelector(r.state), Go(r.nav))
         else Handled(s, NoAction)
       case PressChangePhoto =>
         Handled(s, Go(if corrected then StyleSelector.PhotoPressCorrected(sel) else StyleSelector.PhotoPress(sel)))
       case PressBack => Handled(s, StyleSelector.Back(sel))
       case _ => Handled(s, NoAction))
    case AtDescription(d) =>
      (match ev
       case PressChangeStyle => Handled(s, Go(Description.StylePress(d)))
       case PressChangePhoto => Handled(s, Go(Description.PhotoPress(d)))
       case PressBackToStart => Handled(s, Description.BackToStart(d))
       case PressGenerate(text) => Handled(s, Description.Generate(d, text))
       case _ => Handled(s, NoAction))
  }

  /** One press: run the handler, perform its action against storage, and
      mount the screen it navigates to. */
  function Step(app: App, ev: Event, corrected: bool): (r: App)
    ensures r.store.faulty == app.store.faulty
    // storage changes only through a checkpoint, and never receives ""
    ensures !Handle(app.screen, ev, corrected).action.SaveThenGo? ==> r.store == app.store
    ensures NoEmptyDraftValues(app.store) ==> NoEmptyDraftValues(r.store)
    // a press that navigates always lands on a screen
    ensures var a := Handle(app.screen, ev, corrected).action;
            a.Go? || a.SaveThenGo? ==> Some(r.screen) == Enter(a.nav, r.store)
  {
    var h := Handle(app.screen, ev, corrected);
    var eff := Perform(app.store, h.action);
    match eff.nav
    case None => App(h.screen, eff.store)
    case Some(nav) =>
      match Enter(nav, eff.store)
      case Some(next) => App(next, eff.store)
      case None => App(h.screen, eff.store)
  }

  /** A sequence of presses. */
  function Run(app: App, evs: seq<Event>, corrected: bool): App
    decreases |evs|
  {
    if |evs| == 0 then app else Run(Step(app, evs[0], corrected), evs[1..], corrected)
  }

  lemma RunTwo(app: App, a: Event, b: Event, corrected: bool)
    ensures Run(app, [a, b], corrected) == Step(Step(app, a, corrected), b, corrected)
  {
    assert [a, b][1..] == [b];
    assert [b][1..] == [];
    assert Run(app, [a, b], corrected) == Run(Step(app, a, corrected), [b], corrected);
    assert Run(Step(app, a, corrected), [b], corrected)
           == Run(Step(Step(app, a, corrected), b, corrected), [], corrected);
  }

  lemma RunThree(app: App, a: Event, b: Event, c: Event, corrected: bool)
    ensures Run(app, [a, b, c], corrected)
            == Step(Step(Step(app, a, corrected), b, corrected), c, corrected)
  {
    assert [a, b, c][1..] == [b, c];
    assert Run(app, [a, b, c], corrected) == Run(Step(app, a, corrected), [b, c], corrected);
    RunTwo(Step(app, a, corrected), b, c, corrected);
  }

  /** The two variants of the app handle every press alike except the home
      screen's first button and the style selector's "Change photo". */
  lemma VariantsAgree(s: Screen, ev: Event)
    requires !(s.AtHome? && ev.PressPrimary?) && !(s.AtSelector? && ev.PressChangePhoto?)
    ensures Handle(s, ev, true) == Handle(s, ev, false)
  {
  }

  /** The home screen's description and theme buttons push the selector with
      only their start type. */
  lemma EntryButtons(h: Home.State, corrected: bool)
    ensures Handle(AtHome(h), PressStartDescription, corrected).action
            == Go(Push(SelectorPath, map["startType" := Some("description")]))
    ensures Handle(AtHome(h), PressStartTheme, corrected).action
            == Go(Push(SelectorPath, map["startType" := Some("theme")]))
  {
  }

  /** The upload screen's continue button is disabled without a photo, so
      the "Photo Required" alert of its handler is never shown through it. */
  lemma ContinueButtonDisabled(u: UploadPhoto.State, corrected: bool)
    ensures !Truthy(u.photoUri) ==> Handle(AtUpload(u), PressContinue, corrected).action == NoAction
    ensures Truthy(u.photoUri) ==>
              Handle(AtUpload(u), PressContinue, corrected).action == UploadPhoto.Continue(u)
              && UploadPhoto.Continue(u).Go?
  {
  }

  /** No stored style or preview without a stored photo. */
  predicate Anchored(st: Store) {
    Lookup(st, StyleKey).Some? || Lookup(st, ImageKey).Some? ==> Lookup(st, PhotoKey).Some?
  }

  /** A press never leaves a style in storage without a photo, in either
      variant. */
  lemma StepAnchored(app: App, ev: Event, corrected: bool)
    requires Anchored(app.store)
    ensures Anchored(Step(app, ev, corrected).store)
  {
    var h := Handle(app.screen, ev, corrected);
    if h.action.SaveThenGo? {
      var d := h.action.draft;
      assert Truthy(d.photoUri);
      var saved := Save(app.store, d.photoUri, d.selectedStyle, d.styleImage);
      assert Step(app, ev, corrected).store == saved.store;
      if PhotoKey !in app.store.faulty {
        assert Lookup(saved.store, PhotoKey) == d.photoUri;
      }
    }
  }

  /** Over any run of presses, in either variant, the failing keys stay the
      same, no draft key receives the empty string, and no style is stored
      without a photo. */
  lemma {:induction false} RunPreservesStore(app: App, evs: seq<Event>, corrected: bool)
    requires NoEmptyDraftValues(app.store) && Anchored(app.store)
    ensures Run(app, evs, corrected).store.faulty == app.store.faulty
    ensures NoEmptyDraftValues(Run(app, evs, corrected).store)
    ensures Anchored(Run(app, evs, corrected).store)
    decreases |evs|
  {
    if |evs| > 0 {
      StepAnchored(app, evs[0], corrected);
      RunPreservesStore(Step(app, evs[0], corrected), evs[1..], corrected);
    }
  }

  /** Checkpoint and resume, in either variant: "Back to Start" from the
      preview with a full draft on a healthy store, then the home screen's
      first button, brings back the same preview. */
  lemma CheckpointResume(d: Description.State, st: Store, corrected: bool)
    requires Truthy(d.photoUri) && Truthy(d.selectedStyle) && Truthy(d.styleImage)
    requires DraftKeys !! st.faulty
    ensures Step(App(AtDescription(d), st), PressBackToStart, corrected).screen
            == AtHome(Home.State(Draft(d.photoUri, d.selectedStyle, d.styleImage)))
    ensures Run(App(AtDescription(d), st), [PressBackToStart, PressPrimary], corrected).screen
            == AtDescription(d)
  {
    var a1 := Step(App(AtDescription(d), st), PressBackToStart, corrected);
    SaveThenGet(st, d.photoUri.value, d.selectedStyle.value, d.styleImage.value);
    assert a1.screen == AtHome(Home.State(Draft(d.photoUri, d.selectedStyle, d.styleImage)));
    var a2 := Step(a1, PressPrimary, corrected);
    assert a2.screen == AtDescription(d);
    RunTwo(App(AtDescription(d), st), PressBackToStart, PressPrimary, corrected);
  }

  /** A checkpoint without a style keeps an older stored style, in either
      variant: the next resume shows the style of an earlier session. */
  lemma CheckpointKeepsOlderStyle(photo: string, older: string, st: Store, corrected: bool)
    requires photo != "" && older != ""
    requires DraftKeys !! st.faulty && Lookup(st, StyleKey) == Some(older)
    ensures var sel := StyleSelector.State(StyleSelector.Args(Some(photo), None, None, None), None);
            Step(App(AtSelector(sel), st), PressBack, corrected).screen.home.saved.selectedStyle == Some(older)
  {
    var sel := StyleSelector.State(StyleSelector.Args(Some(photo), None, None, None), None);
    var saved := Save(st, Some(photo), None, None);
    assert Step(App(AtSelector(sel), st), PressBack, corrected).store == saved.store;
    assert Lookup(saved.store, StyleKey) == Some(older);
  }

  /** As written, "Change photo" on the style selector followed by
      "Continue" on the upload screen reopens the selector with no style:
      the style was passed under names the upload screen does not read. */
  lemma PhotoPressAsWrittenDropsStyle(sel: StyleSelector.State, st: Store)
    requires Truthy(sel.args.photoUri) && sel.selected.Some?
    ensures var app := Run(App(AtSelector(sel), st), [PressChangePhoto, PressContinue], false);
            && app.screen.AtSelector?
            && app.screen.selector.args.photoUri == sel.args.photoUri
            && app.screen.selector.selected.None?
  {
    var a1 := Step(App(AtSelector(sel), st), PressChangePhoto, false);
    assert a1.screen == AtUpload(UploadPhoto.Open(StyleSelector.PhotoPress(sel).params));
    assert !UploadPhoto.ReturnsToDescription(a1.screen.upload);
    RunTwo(App(AtSelector(sel), st), PressChangePhoto, PressContinue, false);
  }

  /** In the corrected variant the same round trip, with or without a new
      pick, keeps the selected style and its preview; the photo is the
      picked one when a pick succeeded. */
  lemma ChangePhotoKeepsStyle(sel: StyleSelector.State, st: Store, r: PickerResult)
    requires Truthy(sel.args.photoUri) && sel.selected.Some? && sel.selected.value.name != ""
    ensures var photo := if r.Picked? && |r.assets| > 0 then Some(r.assets[0]) else sel.args.photoUri;
            var app := Run(App(AtSelector(sel), st), [PressChangePhoto, PressPick(r), PressContinue], true);
            && app.store == st
            && (Truthy(photo) ==>
                  && app.screen.AtSelector?
                  && app.screen.selector.args.photoUri == photo
                  && StyleSelector.NameParam(app.screen.selector.selected) == StyleSelector.NameParam(sel.selected)
                  && StyleSelector.ImageParam(app.screen.selector.selected) == StyleSelector.ImageParam(sel.selected))
            && (!Truthy(photo) ==> app.screen.AtUpload?)
  {
    var a1 := Step(App(AtSelector(sel), st), PressChangePhoto, true);
    var a2 := Step(a1, PressPick(r), true);
    var a3 := Step(a2, PressContinue, true);
    assert a1.screen.AtUpload? && a1.screen.upload.photoUri == sel.args.photoUri;
    assert !UploadPhoto.ReturnsToDescription(a2.screen.upload);
    RunThree(App(AtSelector(sel), st), PressChangePhoto, PressPick(r), PressContinue, true);
  }

  /** Editing the photo from the preview, in either variant: "Back" on the
      upload screen returns to the same preview, whatever was picked in
      between. */
  lemma EditPhotoBack(d: Description.State, st: Store, r: PickerResult, corrected: bool)
    requires Truthy(d.selectedStyle) && Truthy(d.styleImage)
    ensures Run(App(AtDescription(d), st), [PressChangePhoto, PressPick(r), PressBack], corrected)
            == App(AtDescription(d), st)
  {
    var a1 := Step(App(AtDescription(d), st), PressChangePhoto, corrected);
    var a2 := Step(a1, PressPick(r), corrected);
    var a3 := Step(a2, PressBack, corrected);
    assert UploadPhoto.ReturnsToDescription(a2.screen.upload);
    assert a3 == App(AtDescription(d), st);
    RunThree(App(AtDescription(d), st), PressChangePhoto, PressPick(r), PressBack, corrected);
  }

  /** Editing the photo from the preview, in either variant: a new pick and
      "Continue" return to the preview with the new photo and the same
      style. */
  lemma EditPhotoContinue(d: Description.State, st: Store, photo: string, corrected: bool)
    requires Truthy(d.selectedStyle) && Truthy(d.styleImage) && photo != ""
    ensures Run(App(AtDescription(d), st), [PressChangePhoto, PressPick(Picked([photo])), PressContinue], corrected)
            == App(AtDescription(d.(photoUri := Some(photo))), st)
  {
    var a1 := Step(App(AtDescription(d), st), PressChangePhoto, corrected);
    var a2 := Step(a1, PressPick(Picked([photo])), corrected);
    var a3 := Step(a2, PressContinue, corrected);
    assert UploadPhoto.ReturnsToDescription(a2.screen.upload);
    assert a3 == App(AtDescription(d.(photoUri := Some(photo))), st);
    RunThree(App(AtDescription(d), st), PressChangePhoto, PressPick(Picked([photo])), PressContinue, corrected);
  }

  /** Editing the style from the preview, in either variant: a tile press
      returns to the preview with the same photo and the tapped style, whose
      preview the description screen shows as the catalog intends. */
  lemma EditStyle(d: Description.State, st: Store, e: Entry, corrected: bool)
    requires e in AllEntries
    ensures var app := Run(App(AtDescription(d), st), [PressChangeStyle, PressTile(e)], corrected);
            && app == App(AtDescription(Description.State(d.photoUri, Some(e.name), Serialize(Some(e.image)))), st)
            && Description.StyleImageSource(app.screen.description) == Intended(e.image)
  {
    var a1 := Step(App(AtDescription(d), st), PressChangeStyle, corrected);
    var sel := StyleSelector.Open(Description.StylePress(d).params);
    assert a1 == App(AtSelector(sel), st);
    TileStep(sel, st, e, corrected);
    RunTwo(App(AtDescription(d), st), PressChangeStyle, PressTile(e), corrected);
    CatalogRoundTrip(e);
  }

  /** A tile press on the selector opens the preview with the tapped style. */
  lemma TileStep(sel: StyleSelector.State, st: Store, e: Entry, corrected: bool)
    requires e in AllEntries
    ensures Step(App(AtSelector(sel), st), PressTile(e), corrected)
            == App(AtDescription(Description.State(sel.args.photoUri, Some(e.name), Serialize(Some(e.image)))), st)
  {
    var r := StyleSelector.SelectStyle(sel, e);
    assert Handle(AtSelector(sel), PressTile(e), corrected) == Handled(AtSelector(r.state), Go(r.nav));
  }

  /** On a first launch with an empty store, the first button as written
      leaves the app where it is. */
  lemma FirstLaunchDoesNothingAsWritten(st: Store)
    requires DraftKeys !! st.faulty && forall k :: k in DraftKeys ==> k !in st.items
    ensures var home := Enter(GoHome, st).value;
            Step(App(home, st), PressPrimary, false) == App(home, st)
  {
    var home := Enter(GoHome, st).value;
    assert home.home.saved == EmptyDraft;
  }

  /** On a first launch with an empty store, the first button in the
      corrected variant opens the upload screen with nothing prefilled. */
  lemma FirstLaunchStartsUpload(st: Store)
    requires DraftKeys !! st.faulty && forall k :: k in DraftKeys ==> k !in st.items
    ensures var home := Enter(GoHome, st).value;
            Step(App(home, st), PressPrimary, true).screen == AtUpload(UploadPhoto.Open(map[]))
  {
    var home := Enter(GoHome, st).value;
    assert home.home.saved == EmptyDraft;
  }
}

=== FILE: home.dfy ===
/** The entry screen (app/home.js): the saved draft it hydrates on mount and
    the navigation its three buttons trigger. */
module Home {
  import opened Js
  import opened Storage
  import opened Router

  /** The screen's only state, `savedData`. */
  datatype State = State(saved: Draft)

  /** The state before the storage read finishes. */
  function Initial(): (h: State)
    ensures h.saved.photoUri.None? && h.saved.selectedStyle.None? && h.saved.styleImage.None?
  {
    State(EmptyDraft)
  }

  /** The mount effect: `setSavedData(await getPhotoAndStyle())`. */
  function Hydrate(h: State, st: Store): (r: State)
    // the previous state is replaced wholesale, field by field from storage
    ensures DraftKeys !! st.faulty ==>
              r.saved == Draft(Lookup(st, PhotoKey), Lookup(st, StyleKey), Lookup(st, ImageKey))
    // a failing read leaves nothing saved, whatever was shown before
    ensures !(DraftKeys !! st.faulty) ==> r == Initial()
  {
    State(Get(st))
  }

  /** `navigateToUploadPhoto`: straight to the style selector with the saved
      draft when a photo is saved, else to the upload screen. */
  function NavigateToUploadPhoto(h: State): (nav: Nav)
    ensures Truthy(h.saved.photoUri) ==>
              && nav.path == SelectorPath
              && Arg(nav.params, "photoUri") == h.saved.photoUri
              && Arg(nav.params, "existingStyle") == h.saved.selectedStyle
              && Arg(nav.params, "existingStyleImage") == h.saved.styleImage
    ensures !Truthy(h.saved.photoUri) ==> nav.path == UploadPath && nav.params == map[]
  {
    if Truthy(h.saved.photoUri) then
      Push(SelectorPath, map["photoUri" := h.saved.photoUri,
                             "existingStyle" := h.saved.selectedStyle,
                             "existingStyleImage" := h.saved.styleImage])
    else Push(UploadPath, map[])
  }

  /** `navigateToStyleSelector(startType)`, which the "Start with
      Description" and "Start with Theme" buttons call with 'description'
      and 'theme': carries the start type and nothing from the saved draft. */
  function NavigateToStyleSelector(startType: string): (nav: Nav)
    ensures nav.path == SelectorPath
    ensures nav.params.Keys == {"startType"}
    ensures Arg(nav.params, "startType") == Some(startType)
  {
    Push(SelectorPath, map["startType" := Some(startType)])
  }

  /** `handleContinueWithPhoto`, the handler bound to the first button. */
  function ContinueWithPhoto(h: State): (a: Action)
    ensures a.Go? <==> Truthy(h.saved.photoUri)
    ensures !Truthy(h.saved.photoUri) ==> a == NoAction
    ensures a.Go? ==>
              && a.nav.path == DescriptionScreenPath
              && Arg(a.nav.params, "photoUri") == h.saved.photoUri
              && Arg(a.nav.params, "selectedStyle") == h.saved.selectedStyle
              && Arg(a.nav.params, "styleImage") == h.saved.styleImage
              && Arg(a.nav.params, "returnTo") == Some("start")
  {
    if Truthy(h.saved.photoUri) then
      Go(Push(DescriptionScreenPath, map["photoUri" := h.saved.photoUri,
                                         "selectedStyle" := h.saved.selectedStyle,
                                         "styleImage" := h.saved.styleImage,
                                         "returnTo" := Some("start")]))
    else NoAction
  }

  /** The first button's title. */
  function PrimaryLabel(h: State): string {
    if Truthy(h.saved.photoUri) then "Continue with Photo" else "Start with a Photo"
  }

  /** The title promises to continue exactly when pressing continues. */
  lemma LabelMatchesAction(h: State)
    ensures PrimaryLabel(h) == "Continue with Photo" <==> ContinueWithPhoto(h).Go?
  {
  }

  /** As written, the first button titled "Start with a Photo" does nothing:
      `navigateToUploadPhoto` is never bound to it. */
  lemma StartWithPhotoDoesNothing()
    ensures PrimaryLabel(Initial()) == "Start with a Photo"
    ensures ContinueWithPhoto(Initial()) == NoAction
  {
  }

  /** The first button as evidently intended: continue with a saved photo,
      otherwise start the upload flow. */
  function PrimaryAction(h: State): (a: Action)
    ensures a.Go?
    ensures Truthy(h.saved.photoUri) ==> a == ContinueWithPhoto(h)
    ensures !Truthy(h.saved.photoUri) ==> a.nav.path == UploadPath
  {
    if Truthy(h.saved.photoUri) then ContinueWithPhoto(h) else Go(NavigateToUploadPhoto(h))
  }

  /** With the correction the title always describes where the button goes. */
  lemma PrimaryActionMatchesLabel(h: State)
    ensures PrimaryLabel(h) == "Continue with Photo" <==> PrimaryAction(h).nav.path == DescriptionScreenPath
    ensures PrimaryLabel(h) == "Start with a Photo" <==> PrimaryAction(h).nav.path == UploadPath
  {
  }
}

=== FILE: js.dfy ===
/** JavaScript values as the app's screens see them: a string that may be
    null or undefined, a thrown-or-returned result, and the truthiness test
    the source applies with `if (x)` and `x || fallback`. */
module Js {

  /** A value that may be null/undefined (`None`) or present (`Some`). */
  datatype Option<+T> = None | Some(value: T)

  /** Either a returned value or a thrown error. */
  datatype Result<+T, +E> = Success(value: T) | Failure(error: E)

  /** `if (x)` on a string-or-null: null, undefined and "" are all falsy. */
  predicate Truthy(x: Option<string>) {
    x.Some? && x.value != ""
  }

  /** A string as a template literal shows it: `${x}` of undefined is "undefined". */
  function Show(x: Option<string>): string {
    match x
    case Some(v) => v
    case None => "undefined"
  }
}

=== FILE: json.dfy ===
/** The two uses the screens make of JSON: `JSON.stringify` of a bundled
    asset reference (a natural number, printed in decimal) and `JSON.parse`
    of a route parameter, which either yields a value or throws. Parsing is
    modelled as a recogniser for the JSON-text grammar of RFC 8259 (section 2
    to 7): it decides whether `JSON.parse` throws; the value parsed is only
    modelled for canonical decimal naturals. */
module Json {
  import opened Js

  predicate IsWs(c: char) {
    c == ' ' || c == '\t' || c == '\n' || c == '\r'
  }

  predicate IsDigit(c: char) {
    '0' <= c <= '9'
  }

  predicate IsHex(c: char) {
    IsDigit(c) || 'a' <= c <= 'f' || 'A' <= c <= 'F'
  }

  /** A character that can begin a JSON value. */
  predicate StartsValue(c: char) {
    c == '{' || c == '[' || c == '"' || c == '-' || IsDigit(c) || c == 't' || c == 'f' || c == 'n'
  }

  /** The position of the first non-whitespace character at or after `i`. */
  function SkipWs(s: string, i: nat): (j: nat)
    requires i <= |s|
    ensures i <= j <= |s|
    ensures forall k :: i <= k < j ==> IsWs(s[k])
    ensures j < |s| ==> !IsWs(s[j])
    decreases |s| - i
  {
    if i < |s| && IsWs(s[i]) then SkipWs(s, i + 1) else i
  }

  /** The position of the first non-digit at or after `i`. */
  function SkipDigits(s: string, i: nat): (j: nat)
    requires i <= |s|
    ensures i <= j <= |s|
    ensures forall k :: i <= k < j ==> IsDigit(s[k])
    ensures j < |s| ==> !IsDigit(s[j])
    decreases |s| - i
  {
    if i < |s| && IsDigit(s[i]) then SkipDigits(s, i + 1) else i
  }

  /** The keyword `lit` at position `i`. */
  function Literal(s: string, i: nat, lit: string): (r: Option<nat>)
    requires i <= |s|
    requires lit != ""
    ensures r.Some? ==> i < r.value <= |s|
  {
    if i + |lit| <= |s| && s[i..i + |lit|] == lit then Some(i + |lit|) else None
  }

  /** An optional fraction `.digits` at `i`. */
  function Fraction(s: string, i: nat): (r: Option<nat>)
    requires i <= |s|
    ensures r.Some? ==> i <= r.value <= |s|
  {
    if i < |s| && s[i] == '.' then
      if i + 1 < |s| && IsDigit(s[i + 1]) then Some(SkipDigits(s, i + 1)) else None
    else Some(i)
  }

  /** An optional exponent `e[+-]digits` at `i`. */
  function Exponent(s: string, i: nat): (r: Option<nat>)
    requires i <= |s|
    ensures r.Some? ==> i <= r.value <= |s|
  {
    if i < |s| && (s[i] == 'e' || s[i] == 'E') then
      var j := if i + 1 < |s| && (s[i + 1] == '+' || s[i + 1] == '-') then i + 2 else i + 1;
      if j < |s| && IsDigit(s[j]) then Some(SkipDigits(s, j)) else None
    else Some(i)
  }

  /** A number `-? (0 | [1-9][0-9]*) fraction? exponent?` at `i`. */
  function Number(s: string, i: nat): (r: Option<nat>)
    requires i <= |s|
    ensures r.Some? ==> i < r.value <= |s|
  {
    var a := if i < |s| && s[i] == '-' then i + 1 else i;
    if a >= |s| || !IsDigit(s[a]) then None
    else
      var b := if s[a] == '0' then a + 1 else SkipDigits(s, a);
      match Fraction(s, b)
      case None => None
      case Some(c) => Exponent(s, c)
  }

  /** The rest of a string literal after its opening quote, up to and
      including the closing quote. */
  function StringBody(s: string, i: nat): (r: Option<nat>)
    requires i <= |s|
    ensures r.Some? ==> i < r.value <= |s|
    decreases |s| - i
  {
    if i >= |s| then None
    else if s[i] == '"' then Some(i + 1)
    else if s[i] == '\\' then
      if i + 1 < |s| && s[i + 1] in "\"\\/bfnrt" then StringBody(s, i + 2)
      else if i + 5 < |s| && s[i + 1] == 'u'
              && IsHex(s[i + 2]) && IsHex(s[i + 3]) && IsHex(s[i + 4]) && IsHex(s[i + 5])
      then StringBody(s, i + 6)
      else None
    else if s[i] < ' ' then None
    else StringBody(s, i + 1)
  }

  /** A value starting exactly at `i`; the position just after it. */
  function Value(s: string, i: nat): (r: Option<nat>)
    requires i <= |s|
    ensures r.Some? ==> i < r.value <= |s|
    decreases |s| - i, 0
  {
    if i >= |s| then None
    else if s[i] == '{' then
      var j := SkipWs(s, i + 1);
      if j < |s| && s[j] == '}' then Some(j + 1) else Members(s, j)
    else if s[i] == '[' then
      var j := SkipWs(s, i + 1);
      if j < |s| && s[j] == ']' then Some(j + 1) else Elements(s, j)
    else if s[i] == '"' then StringBody(s, i + 1)
    else if s[i] == 't' then Literal(s, i, "true")
    else if s[i] == 'f' then Literal(s, i, "false")
    else if s[i] == 'n' then Literal(s, i, "null")
    else if s[i] == '-' || IsDigit(s[i]) then Number(s, i)
    else None
  }

  /** `value ws (, ws elements | ])` inside an array, from `i`. */
  function Elements(s: string, i: nat): (r: Option<nat>)
    requires i <= |s|
    ensures r.Some? ==> i < r.value <= |s|
    decreases |s| - i, 1
  {
    match Value(s, i)
    case None => None
    case Some(e) =>
      var k := SkipWs(s, e);
      if k < |s| && s[k] == ',' then Elements(s, SkipWs(s, k + 1))
      else if k < |s| && s[k] == ']' then Some(k + 1)
      else None
  }

  /** `string ws : ws value ws (, ws members | })` inside an object, from `i`. */
  function Members(s: string, i: nat): (r: Option<nat>)
    requires i <= |s|
    ensures r.Some? ==> i < r.value <= |s|
    decreases |s| - i, 1
  {
    if i >= |s| || s[i] != '"' then None
    else match StringBody(s, i + 1)
      case None => None
      case Some(keyEnd) =>
        var colon := SkipWs(s, keyEnd);
        if colon >= |s| || s[colon] != ':' then None
        else match Value(s, SkipWs(s, colon + 1))
          case None => None
          case Some(e) =>
            var k := SkipWs(s, e);
            if k < |s| && s[k] == ',' then Members(s, SkipWs(s, k + 1))
            else if k < |s| && s[k] == '}' then Some(k + 1)
            else None
  }

  /** `JSON.parse(s)` returns rather than throws: `s` is one value with
      optional whitespace around it. */
  predicate IsJson(s: string) {
    var i := SkipWs(s, 0);
    match Value(s, i)
    case None => false
    case Some(e) => SkipWs(s, e) == |s|
  }

  /** A text whose first non-whitespace character cannot begin a value
      (every `https://...` URL, for one) makes `JSON.parse` throw. */
  lemma NotJsonByFirstChar(s: string)
    requires SkipWs(s, 0) < |s| ==> !StartsValue(s[SkipWs(s, 0)])
    ensures !IsJson(s)
  {
  }

  // ---- natural numbers in decimal ----

  function DigitChar(d: nat): (c: char)
    requires d < 10
    ensures IsDigit(c)
  {
    "0123456789"[d]
  }

  function DigitValue(c: char): (d: nat)
    requires IsDigit(c)
    ensures d < 10
  {
    (c as int) - ('0' as int)
  }

  /** Canonical decimal text of a natural: digits only, no leading zero. */
  predicate IsNatText(s: string) {
    && |s| > 0
    && (forall k :: 0 <= k < |s| ==> IsDigit(s[k]))
    && (s[0] == '0' ==> |s| == 1)
  }

  /** `JSON.stringify(n)` for a natural `n` below 10^21, where JavaScript still
      prints plain decimal digits; asset ids are far below that. */
  function NatToString(n: nat): (s: string)
    ensures IsNatText(s)
    ensures n > 0 ==> s[0] != '0'
  {
    if n < 10 then [DigitChar(n)] else NatToString(n / 10) + [DigitChar(n % 10)]
  }

  /** The value of a string of digits. */
  function ParseNat(s: string): nat
    requires forall k :: 0 <= k < |s| ==> IsDigit(s[k])
  {
    if |s| == 0 then 0 else ParseNat(s[..|s| - 1]) * 10 + DigitValue(s[|s| - 1])
  }

  /** Printing then reading a natural gives it back. */
  lemma {:induction false} ParseNatToString(n: nat)
    ensures ParseNat(NatToString(n)) == n
  {
    var s := NatToString(n);
    if n >= 10 {
      ParseNatToString(n / 10);
      assert s[..|s| - 1] == NatToString(n / 10);
    }
  }

  /** A digit string with a non-zero first digit has a non-zero value. */
  lemma {:induction false} ParseNatPositive(s: string)
    requires |s| > 0 && forall k :: 0 <= k < |s| ==> IsDigit(s[k])
    requires s[0] != '0'
    ensures ParseNat(s) > 0
  {
    if |s| > 1 {
      ParseNatPositive(s[..|s| - 1]);
    }
  }

  /** Reading then printing a canonical decimal text gives it back: the
      encoding of naturals is a bijection onto the canonical texts. */
  lemma {:induction false} NatToStringParse(s: string)
    requires IsNatText(s)
    ensures NatToString(ParseNat(s)) == s
  {
    if |s| > 1 {
      var p := s[..|s| - 1];
      assert IsNatText(p);
      ParseNatPositive(p);
      NatToStringParse(p);
      var m := ParseNat(s);
      assert m == ParseNat(p) * 10 + DigitValue(s[|s| - 1]);
      assert m / 10 == ParseNat(p) && m % 10 == DigitValue(s[|s| - 1]);
      assert DigitChar(DigitValue(s[|s| - 1])) == s[|s| - 1];
    } else {
      assert DigitChar(DigitValue(s[0])) == s[0];
    }
  }

  /** Every canonical decimal text is a JSON text, so `JSON.parse` of a
      stringified asset reference returns rather than throws. */
  lemma NatTextIsJson(s: string)
    requires IsNatText(s)
    ensures IsJson(s)
  {
    assert SkipWs(s, 0) == 0;
    var b := if s[0] == '0' then 1 else SkipDigits(s, 0);
    assert b == |s|;
    assert Fraction(s, b) == Some(b);
    assert Exponent(s, b) == Some(b);
    assert Number(s, 0) == Some(|s|);
    assert Value(s, 0) == Some(|s|);
  }
}

=== FILE: legacy_selector.dfy ===
/** The React Navigation generate screen (app/screens/StyleSelectorScreen.js),
    a code path separate from the expo-router screens: validate the inputs in
    order, compose the prompt, send one request, classify the response. */
module LegacySelector {
  import opened Js
  import opened Errors
  import opened Picker

  /** The start type the screen reads: `route.params || {startType: 'photo'}`.
      `routeParams` is `None` when the route has no params object, and a
      params object may itself lack `startType`. */
  function StartTypeOf(routeParams: Option<Option<string>>): (t: Option<string>)
    ensures routeParams.None? ==> t == Some("photo")
    ensures routeParams.Some? ==> t == routeParams.value
  {
    match routeParams
    case None => Some("photo")
    case Some(st) => st
  }

  /** The screen title chosen by the start-type effect. */
  function Title(startType: Option<string>): (title: string)
    ensures startType == Some("photo") ==> title == "Transform Your Photo"
    ensures startType == Some("description") ==> title == "Create from Description"
    ensures startType == Some("theme") ==> title == "Explore by Theme"
    ensures startType !in {Some("photo"), Some("description"), Some("theme")} ==> title == "Select Style"
  {
    if startType == Some("photo") then "Transform Your Photo"
    else if startType == Some("description") then "Create from Description"
    else if startType == Some("theme") then "Explore by Theme"
    else "Select Style"
  }

  predicate IsPhoto(startType: Option<string>) { startType == Some("photo") }
  predicate IsDescription(startType: Option<string>) { startType == Some("description") }
  predicate IsTheme(startType: Option<string>) { startType == Some("theme") }

  /** The screen's state. */
  datatype State = State(
    startType: Option<string>,
    image: Option<string>,
    description: string,
    style: string,
    loading: bool,
    generatedImage: Option<string>,
    error: Option<ErrorInfo>)

  /** The screen as mounted. */
  function Open(routeParams: Option<Option<string>>): (s: State)
    ensures s.startType == StartTypeOf(routeParams)
    ensures s.image.None? && s.description == "" && s.style == ""
    ensures !s.loading && s.generatedImage.None? && s.error.None?
  {
    State(StartTypeOf(routeParams), None, "", "", false, None, None)
  }

  /** A style tile's `onPress`. */
  function SelectTile(s: State, name: string): (t: State)
    ensures t == s.(style := name)
  {
    s.(style := name)
  }

  /** `pickImage`, with the permission outcome and the picker outcome. */
  function PickImage(s: State, granted: bool, r: PickerResult): (t: State)
    ensures !granted ==> t == s.(error := Some(HandleImageError(ImageProcessingError(UploadFailed))))
    ensures granted && r.Picked? && |r.assets| > 0 ==> t == s.(image := Some(r.assets[0]), error := None)
    ensures granted && r.Threw? ==> t == s.(error := Some(HandleImageError(OtherError(""))))
    ensures granted && !r.Threw? && !(r.Picked? && |r.assets| > 0) ==> t == s
  {
    if !granted then s.(error := Some(HandleImageError(ImageProcessingError(UploadFailed))))
    else match r
      case Picked(assets) => if |assets| > 0 then s.(image := Some(assets[0]), error := None) else s
      case Canceled => s
      case Threw => s.(error := Some(HandleImageError(OtherError(""))))
  }

  /** The inputs `handleGenerate` lets through, stated per field. */
  predicate ReadyToSubmit(s: State) {
    && (IsPhoto(s.startType) ==> Truthy(s.image))
    && (IsDescription(s.startType) ==> s.description != "")
    && s.style != ""
  }

  /** The validation at the top of `handleGenerate`: the first failing
      check's error, or `None` when all pass. */
  function Validate(s: State): (r: Option<ErrorInfo>)
    ensures r.None? <==> ReadyToSubmit(s)
    // checked in this order: photo, then description, then style
    ensures IsPhoto(s.startType) && !Truthy(s.image) ==>
              r == Some(HandleImageError(ImageProcessingError(UploadFailed)))
    ensures !(IsPhoto(s.startType) && !Truthy(s.image)) && IsDescription(s.startType) && s.description == "" ==>
              r == Some(HandleStyleError(StyleSelectionError("Please enter a description")))
    ensures (IsPhoto(s.startType) ==> Truthy(s.image)) && (IsDescription(s.startType) ==> s.description != "")
            && s.style == "" ==>
              r == Some(HandleStyleError(StyleSelectionError(SelectionRequired)))
  {
    if IsPhoto(s.startType) && !Truthy(s.image) then
      Some(HandleImageError(ImageProcessingError(UploadFailed)))
    else if IsDescription(s.startType) && s.description == "" then
      Some(HandleStyleError(StyleSelectionError("Please enter a description")))
    else if s.style == "" then
      Some(HandleStyleError(StyleSelectionError(SelectionRequired)))
    else None
  }

  /** `finalPrompt`. */
  function Prompt(startType: Option<string>, description: string, style: string): (p: string)
    // empty exactly for a start type none of the branches handles
    ensures p == "" <==> !(IsPhoto(startType) || IsDescription(startType) || IsTheme(startType))
    // photo and description prompts end with the style clause
    ensures IsPhoto(startType) || IsDescription(startType) ==>
              |p| >= |style| + 10 && OccursAt(" in " + style + " style", p, |p| - |style| - 10)
    // ahead of the style clause: the description, or "A portrait" for a photo without one
    ensures IsPhoto(startType) ==> p[..|p| - |style| - 10] == (if description != "" then description else "A portrait")
    ensures IsDescription(startType) ==> p[..|p| - |style| - 10] == description
    // a theme prompt opens with the style clause and closes with the theme,
    // or "artistic creation" without one
    ensures IsTheme(startType) ==> OccursAt("Generate a " + style + " style image based on the theme: ", p, 0)
    ensures IsTheme(startType) ==> p[44 + |style|..] == (if description != "" then description else "artistic creation")
  {
    if IsPhoto(startType) then InStyle(if description != "" then description else "A portrait", style)
    else if IsDescription(startType) then InStyle(description, style)
    else if IsTheme(startType) then OnTheme(style, if description != "" then description else "artistic creation")
    else ""
  }

  /** `<lead> in <style> style`. */
  function InStyle(lead: string, style: string): (p: string)
    ensures |p| == |lead| + |style| + 10
    ensures p[..|lead|] == lead
    ensures OccursAt(" in " + style + " style", p, |lead|)
  {
    lead + (" in " + style + " style")
  }

  /** `Generate a <style> style image based on the theme: <theme>`. */
  function OnTheme(style: string, theme: string): (p: string)
    ensures |p| == 44 + |style| + |theme|
    ensures OccursAt("Generate a " + style + " style image based on the theme: ", p, 0)
    ensures p[44 + |style|..] == theme
  {
    ("Generate a " + style + " style image based on the theme: ") + theme
  }

  /** `s` occurs in `t` at position `k`. */
  predicate OccursAt(s: string, t: string, k: nat) {
    k + |s| <= |t| && t[k..k + |s|] == s
  }

  /** The prompt of every known start type names the chosen style, and uses
      the description when there is one. */
  lemma PromptMentions(startType: Option<string>, description: string, style: string)
    requires IsPhoto(startType) || IsDescription(startType) || IsTheme(startType)
    ensures var p := Prompt(startType, description, style);
            exists k: nat :: OccursAt(style, p, k)
    ensures var p := Prompt(startType, description, style);
            description != "" ==> exists k: nat :: OccursAt(description, p, k)
  {
    var p := Prompt(startType, description, style);
    if IsPhoto(startType) || IsDescription(startType) {
      var lead := p[..|p| - |style| - 10];
      assert OccursAt(" in " + style + " style", p, |lead|);
      assert p[|lead| + 4..|lead| + 4 + |style|] == (" in " + style + " style")[4..4 + |style|];
      assert OccursAt(style, p, |lead| + 4);
      if description != "" {
        assert OccursAt(description, p, 0);
      }
    } else {
      var head := "Generate a " + style + " style image based on the theme: ";
      assert OccursAt(head, p, 0);
      assert p[11..11 + |style|] == head[11..11 + |style|];
      assert OccursAt(style, p, 11);
      if description != "" {
        assert OccursAt(description, p, 44 + |style|);
      }
    }
  }

  /** Worked examples of prompt composition, one per start type. */
  lemma PromptPhotoExample()
    ensures Prompt(Some("photo"), "", "Cyberpunk") == "A portrait in Cyberpunk style"
  {
  }

  lemma PromptDescriptionExample()
    ensures Prompt(Some("description"), "a cat", "Anime") == "a cat in Anime style"
  {
    assert !IsPhoto(Some("description"));
  }

  /** In theme mode an empty description falls back to "artistic creation",
      which ends the prompt, and the style follows "Generate a ". */
  lemma PromptThemeFallback(style: string)
    ensures var p := Prompt(Some("theme"), "", style);
            && OccursAt("Generate a ", p, 0)
            && OccursAt(style, p, 11)
            && OccursAt("artistic creation", p, |p| - 17)
  {
    var p := Prompt(Some("theme"), "", style);
    assert !IsPhoto(Some("theme")) && !IsDescription(Some("theme"));
    assert p == "Generate a " + style + " style image based on the theme: " + "artistic creation";
  }

  lemma PromptUnknownExample()
    ensures Prompt(None, "a cat", "Anime") == ""
  {
  }

  /** The JSON body of the POST. */
  datatype Request = Request(image: Option<string>, style: string, prompt: string, startType: Option<string>)

  function RequestFor(s: State): (q: Request)
    ensures q.image == (if IsPhoto(s.startType) then s.image else None)
    ensures q.style == s.style && q.startType == s.startType
    ensures q.prompt == Prompt(s.startType, s.description, s.style)
  {
    Request(if IsPhoto(s.startType) then s.image else None, s.style,
            Prompt(s.startType, s.description, s.style), s.startType)
  }

  /** What `fetch` produced: a response with its status and the body's
      `generatedImageUrl` field, or a rejection (no response, or a body that
      is not JSON). */
  datatype Response = Received(status: int, generatedImageUrl: Option<string>) | TransportFailure

  /** `response.ok`. */
  predicate IsOk(status: int) { 200 <= status <= 299 }

  /** The try block after `fetch`: the generated image URL or the error
      thrown. */
  function Classify(r: Response): (c: Result<string, Error>)
    ensures r.Received? && !IsOk(r.status) ==> c == Failure(APIError(ServerError, Some(r.status)))
    ensures r.Received? && IsOk(r.status) && !Truthy(r.generatedImageUrl) ==>
              c == Failure(APIError(InvalidResponse, None))
    ensures r.Received? && IsOk(r.status) && Truthy(r.generatedImageUrl) ==> c == Success(r.generatedImageUrl.value)
    ensures r.TransportFailure? ==> c.Failure? && !c.error.APIError?
  {
    match r
    case TransportFailure => Failure(OtherError("Network request failed"))
    case Received(status, url) =>
      if !IsOk(status) then Failure(APIError(ServerError, Some(status)))
      else if !Truthy(url) then Failure(APIError(InvalidResponse, None))
      else Success(url.value)
  }

  /** Worked examples: a 500 is a server error carrying 500, and a 200
      without `generatedImageUrl` is an invalid response. */
  lemma ClassifyExamples()
    ensures Classify(Received(500, None)) == Failure(APIError(ServerError, Some(500)))
    ensures StatusCode(Classify(Received(500, None)).error) == Some(500)
    ensures Classify(Received(200, None)) == Failure(APIError(InvalidResponse, None))
    ensures HandleAPIError(Classify(TransportFailure).error).title == "Connection Error"
  {
  }

  datatype Submitted = Submitted(state: State, request: Option<Request>)

  /** `handleGenerate` up to the `fetch`: on a validation failure only the
      error changes; otherwise loading starts, the error clears, and the
      request is sent. */
  function Submit(s: State): (r: Submitted)
    ensures r.request.Some? <==> ReadyToSubmit(s)
    ensures !ReadyToSubmit(s) ==> r.state == s.(error := Validate(s))
    ensures ReadyToSubmit(s) ==>
              r.state == s.(loading := true, error := None) && r.request == Some(RequestFor(s))
  {
    match Validate(s)
    case Some(e) => Submitted(s.(error := Some(e)), None)
    case None => Submitted(s.(loading := true, error := None), Some(RequestFor(s)))
  }

  /** `handleGenerate` after the `fetch`, through its `finally`. */
  function Complete(s: State, r: Response): (t: State)
    ensures !t.loading
    ensures Classify(r).Success? ==> t == s.(loading := false, generatedImage := Some(Classify(r).value))
    ensures Classify(r).Failure? ==>
              t == s.(loading := false, error := Some(HandleAPIError(Classify(r).error)))
  {
    match Classify(r)
    case Success(url) => s.(loading := false, generatedImage := Some(url))
    case Failure(e) => s.(loading := false, error := Some(HandleAPIError(e)))
  }

  /** The generate button's `disabled`: stricter than validation, since it
      also wants a description in theme mode and for an unknown start type. */
  function Disabled(s: State): (disabled: bool)
    ensures disabled <==> s.loading || !ReadyToSubmit(s) || (!IsPhoto(s.startType) && s.description == "")
  {
    || s.style == ""
    || (IsPhoto(s.startType) && !Truthy(s.image))
    || (!IsPhoto(s.startType) && s.description == "")
    || s.loading
  }

  /** A press on the generate button: nothing happens while it is disabled. */
  function Press(s: State): (r: Submitted)
    ensures Disabled(s) ==> r == Submitted(s, None)
    ensures !Disabled(s) ==> r == Submit(s)
  {
    if Disabled(s) then Submitted(s, None) else Submit(s)
  }

  /** An enabled button always passes validation; the converse fails for
      the theme and unknown start types, whose empty description validation
      accepts but the button refuses. */
  lemma EnabledIsReady(s: State)
    ensures !Disabled(s) ==> ReadyToSubmit(s)
    ensures IsTheme(s.startType) && s.description == "" && s.style != "" ==> ReadyToSubmit(s) && Disabled(s)
  {
  }

  /** A press that sends a request leaves the button disabled until the
      response arrives, so a second press sends nothing. */
  lemma NoDoubleSubmit(s: State)
    requires Press(s).request.Some?
    ensures Press(Press(s).state).request.None?
    ensures Press(Press(s).state).state == Press(s).state
  {
  }

  /** After the response, whatever it was, the button is usable again for
      the same inputs. */
  lemma CompleteReenables(s: State, r: Response)
    requires Press(s).request.Some?
    ensures !Disabled(Complete(Press(s).state, r))
  {
  }

  /** Through the button, the theme prompt never uses its fallback text:
      the theme's own description is always there. */
  lemma ThemeFallbackUnreachable(s: State)
    requires IsTheme(s.startType)
    requires Press(s).request.Some?
    ensures Press(s).request.value.prompt
            == "Generate a " + s.style + " style image based on the theme: " + s.description
  {
  }
}

=== FILE: picker.dfy ===
/** The outcome of an `expo-image-picker` call (library or camera), the only
    part of that foreign library the screens depend on. */
module Picker {

  /** `{canceled: true}`, `{canceled: false, assets}` (one URI per asset),
      or a rejected promise. */
  datatype PickerResult = Canceled | Picked(assets: seq<string>) | Threw
}

=== FILE: router.dfy ===
/** Expo-router navigation as the screens use it: `router.push` with a path
    and string parameters, an optional storage checkpoint before it, or an
    alert instead of it. */
module Router {
  import opened Js
  import opened Storage

  /** Route parameters. A key passed with a null or undefined value is
      present with `None`; reading it gives the same as an absent key. */
  type Params = map<string, Option<string>>

  /** `router.push({pathname, params})`. */
  datatype Nav = Push(path: string, params: Params)

  const HomePath: string := "/"
  const UploadPath: string := "/upload-photo"
  const SelectorPath: string := "/style-selector"
  const DescriptionPath: string := "/description"
  const DescriptionScreenPath: string := "/screens/DescriptionScreen"

  /** The paths the app's screens are mounted at. */
  predicate KnownPath(path: string) {
    path in {HomePath, UploadPath, SelectorPath, DescriptionPath, DescriptionScreenPath}
  }

  /** `useLocalSearchParams()[key]`. */
  function Arg(p: Params, key: string): Option<string> {
    if key in p then p[key] else None
  }

  /** `router.push('/')`. */
  const GoHome: Nav := Push(HomePath, map[])

  /** What a handler does. */
  datatype Action =
    | NoAction
    | Alert(title: string, message: string)
    | Go(nav: Nav)
    | SaveThenGo(draft: Draft, nav: Nav)  // `await savePhotoAndStyle(...)`, then push

  /** The store after a handler ran, and where it navigated, if anywhere. */
  datatype Effect = Effect(store: Store, nav: Option<Nav>)

  /** Running a handler's action against the store. */
  function Perform(st: Store, a: Action): (r: Effect)
    // only the two navigating actions navigate, and always to their target
    ensures r.nav.Some? <==> a.Go? || a.SaveThenGo?
    ensures a.Go? || a.SaveThenGo? ==> r.nav == Some(a.nav)
    // the checkpoint is the only write; its failure does not stop navigation
    ensures !a.SaveThenGo? ==> r.store == st
    ensures a.SaveThenGo? ==>
              r.store == Save(st, a.draft.photoUri, a.draft.selectedStyle, a.draft.styleImage).store
  {
    match a
    case NoAction => Effect(st, None)
    case Alert(_, _) => Effect(st, None)
    case Go(nav) => Effect(st, Some(nav))
    case SaveThenGo(d, nav) =>
      var saved := Save(st, d.photoUri, d.selectedStyle, d.styleImage);
      Effect(saved.store, Some(nav))
  }
}

=== FILE: storage.dfy ===
/** Draft persistence: three string keys in AsyncStorage, written field by
    field, read best-effort, cleared together (app/utils/storage.js). */
module Storage {
  import opened Js

  const PhotoKey: string := "artistic_photo_uri"
  const StyleKey: string := "artistic_selected_style"
  const ImageKey: string := "artistic_style_image"

  /** The three draft keys. */
  const DraftKeys: set<string> := {PhotoKey, StyleKey, ImageKey}

  /** AsyncStorage: the stored items, and the keys on which every call throws.
      A store that fails outright is one whose `faulty` covers all keys. */
  datatype Store = Store(items: map<string, string>, faulty: set<string>)

  /** The record `getPhotoAndStyle` returns. */
  datatype Draft = Draft(photoUri: Option<string>, selectedStyle: Option<string>, styleImage: Option<string>)

  const EmptyDraft: Draft := Draft(None, None, None)

  /** A store after a sequence of calls, and whether none of them threw. */
  datatype Saved = Saved(store: Store, ok: bool)

  /** `getItem` on a healthy key: null when the key was never written. */
  function Lookup(s: Store, key: string): Option<string> {
    if key in s.items then Some(s.items[key]) else None
  }

  /** What a key holds after `if (v) setItem(key, v)` succeeded. */
  function Written(s: Store, key: string, v: Option<string>): Option<string> {
    if Truthy(v) then v else Lookup(s, key)
  }

  /** No draft key holds the empty string. */
  predicate NoEmptyDraftValues(s: Store) {
    forall k :: k in DraftKeys && k in s.items ==> s.items[k] != ""
  }

  /** The three keys are pairwise distinct, so writing one field never
      touches another. */
  lemma KeysDistinct()
    ensures PhotoKey != StyleKey && StyleKey != ImageKey && PhotoKey != ImageKey
    ensures |DraftKeys| == 3
  {
    assert PhotoKey[9] == 'p' && StyleKey[9] == 's' && ImageKey[9] == 's';
    assert StyleKey[10] == 'e' && ImageKey[10] == 't';
  }

  /** One `if (v) await AsyncStorage.setItem(key, v)` inside the try block:
      skipped when a previous call threw or `v` is falsy. */
  function SetIfTruthy(r: Saved, key: string, v: Option<string>): Saved {
    if !r.ok || !Truthy(v) then r
    else if key in r.store.faulty then Saved(r.store, false)
    else Saved(r.store.(items := r.store.items[key := v.value]), true)
  }

  /** `savePhotoAndStyle(photoUri, selectedStyle, styleImage)`: the photo,
      style and image keys are written in that order. */
  function Save(s: Store, photoUri: Option<string>, selectedStyle: Option<string>, styleImage: Option<string>): (r: Saved)
    ensures r.store.faulty == s.faulty
    // true exactly when no storage call threw
    ensures r.ok <==>
              && (Truthy(photoUri) ==> PhotoKey !in s.faulty)
              && (Truthy(selectedStyle) ==> StyleKey !in s.faulty)
              && (Truthy(styleImage) ==> ImageKey !in s.faulty)
    // keys other than the draft's are never touched
    ensures forall k :: k !in DraftKeys ==> Lookup(r.store, k) == Lookup(s, k)
    // the calls run in order and stop at the first throw
    ensures Truthy(photoUri) && PhotoKey in s.faulty ==> r.store == s
    ensures Truthy(selectedStyle) && StyleKey in s.faulty ==>
              Lookup(r.store, StyleKey) == Lookup(s, StyleKey) && Lookup(r.store, ImageKey) == Lookup(s, ImageKey)
    ensures Truthy(styleImage) && ImageKey in s.faulty ==> Lookup(r.store, ImageKey) == Lookup(s, ImageKey)
    // every write before the first throw stays made
    ensures Truthy(photoUri) && PhotoKey !in s.faulty ==> Lookup(r.store, PhotoKey) == photoUri
    ensures Truthy(selectedStyle) && StyleKey !in s.faulty && (Truthy(photoUri) ==> PhotoKey !in s.faulty) ==>
              Lookup(r.store, StyleKey) == selectedStyle
    ensures Truthy(styleImage) && ImageKey !in s.faulty && (Truthy(photoUri) ==> PhotoKey !in s.faulty)
              && (Truthy(selectedStyle) ==> StyleKey !in s.faulty) ==>
              Lookup(r.store, ImageKey) == styleImage
    // a falsy field leaves its stored value as it was
    ensures !Truthy(photoUri) ==> Lookup(r.store, PhotoKey) == Lookup(s, PhotoKey)
    ensures !Truthy(selectedStyle) ==> Lookup(r.store, StyleKey) == Lookup(s, StyleKey)
    ensures !Truthy(styleImage) ==> Lookup(r.store, ImageKey) == Lookup(s, ImageKey)
    // after a failure every field holds either its old or its new value
    ensures Lookup(r.store, PhotoKey) in {Lookup(s, PhotoKey), photoUri}
    ensures Lookup(r.store, StyleKey) in {Lookup(s, StyleKey), selectedStyle}
    ensures Lookup(r.store, ImageKey) in {Lookup(s, ImageKey), styleImage}
    // on success every truthy field is stored
    ensures r.ok ==> Lookup(r.store, PhotoKey) == Written(s, PhotoKey, photoUri)
    ensures r.ok ==> Lookup(r.store, StyleKey) == Written(s, StyleKey, selectedStyle)
    ensures r.ok ==> Lookup(r.store, ImageKey) == Written(s, ImageKey, styleImage)
    // no draft key ever receives the empty string
    ensures NoEmptyDraftValues(s) ==> NoEmptyDraftValues(r.store)
  {
    KeysDistinct();
    var r1 := SetIfTruthy(Saved(s, true), PhotoKey, photoUri);
    var r2 := SetIfTruthy(r1, StyleKey, selectedStyle);
    SetIfTruthy(r2, ImageKey, styleImage)
  }

  /** `getPhotoAndStyle()`: the three reads in order; any throw yields all nulls. */
  function Get(s: Store): (d: Draft)
    ensures DraftKeys !! s.faulty ==>
              d == Draft(Lookup(s, PhotoKey), Lookup(s, StyleKey), Lookup(s, ImageKey))
    ensures !(DraftKeys !! s.faulty) ==> d == EmptyDraft
    ensures NoEmptyDraftValues(s) ==>
              (d.photoUri.None? || Truthy(d.photoUri))
              && (d.selectedStyle.None? || Truthy(d.selectedStyle))
              && (d.styleImage.None? || Truthy(d.styleImage))
  {
    if PhotoKey in s.faulty then EmptyDraft
    else if StyleKey in s.faulty then EmptyDraft
    else if ImageKey in s.faulty then EmptyDraft
    else Draft(Lookup(s, PhotoKey), Lookup(s, StyleKey), Lookup(s, ImageKey))
  }

  /** One `await AsyncStorage.removeItem(key)`; skipped after a throw. */
  function RemoveKey(r: Saved, key: string): Saved {
    if !r.ok then r
    else if key in r.store.faulty then Saved(r.store, false)
    else Saved(r.store.(items := r.store.items - {key}), true)
  }

  /** `clearPhotoAndStyle()`. */
  function Clear(s: Store): (r: Saved)
    ensures r.store.faulty == s.faulty
    ensures r.ok <==> DraftKeys !! s.faulty
    ensures r.ok ==> r.store.items == s.items - DraftKeys
    ensures forall k :: k !in DraftKeys ==> Lookup(r.store, k) == Lookup(s, k)
    ensures forall k :: k in DraftKeys ==> Lookup(r.store, k) in {Lookup(s, k), None}
    ensures NoEmptyDraftValues(s) ==> NoEmptyDraftValues(r.store)
  {
    KeysDistinct();
    var r1 := RemoveKey(Saved(s, true), PhotoKey);
    var r2 := RemoveKey(r1, StyleKey);
    RemoveKey(r2, ImageKey)
  }

  /** Saving three truthy values on a healthy store and reading back
      returns exactly those values. */
  lemma SaveThenGet(s: Store, photoUri: string, selectedStyle: string, styleImage: string)
    requires DraftKeys !! s.faulty
    requires photoUri != "" && selectedStyle != "" && styleImage != ""
    ensures Save(s, Some(photoUri), Some(selectedStyle), Some(styleImage)).ok
    ensures Get(Save(s, Some(photoUri), Some(selectedStyle), Some(styleImage)).store)
            == Draft(Some(photoUri), Some(selectedStyle), Some(styleImage))
  {
    var r := Save(s, Some(photoUri), Some(selectedStyle), Some(styleImage));
    assert Lookup(r.store, PhotoKey) == Some(photoUri);
  }

  /** Saving then reading on a healthy store: each truthy field is read back,
      each falsy one reads back what was there before. */
  lemma SaveThenGetPartial(s: Store, photoUri: Option<string>, selectedStyle: Option<string>, styleImage: Option<string>)
    requires DraftKeys !! s.faulty
    ensures Get(Save(s, photoUri, selectedStyle, styleImage).store)
            == Draft(Written(s, PhotoKey, photoUri), Written(s, StyleKey, selectedStyle), Written(s, ImageKey, styleImage))
  {
    var r := Save(s, photoUri, selectedStyle, styleImage);
    assert r.ok;
  }

  /** After `clearPhotoAndStyle`, reading yields all nulls, whether or not the
      clear itself succeeded. */
  lemma ClearThenGet(s: Store)
    ensures Get(Clear(s).store) == EmptyDraft
  {
    var r := Clear(s);
    if r.ok {
      assert Lookup(r.store, PhotoKey) == None;
      assert Lookup(r.store, StyleKey) == None;
      assert Lookup(r.store, ImageKey) == None;
    }
  }

  /** Saving the same fields twice leaves the store as saving once, on
      success and on failure alike. */
  lemma SaveIdempotent(s: Store, photoUri: Option<string>, selectedStyle: Option<string>, styleImage: Option<string>)
    ensures var once := Save(s, photoUri, selectedStyle, styleImage);
            Save(once.store, photoUri, selectedStyle, styleImage) == once
  {
    KeysDistinct();
    var once := Save(s, photoUri, selectedStyle, styleImage);
    var twice := Save(once.store, photoUri, selectedStyle, styleImage);
    assert twice.ok == once.ok;
    if Truthy(photoUri) && PhotoKey !in s.faulty {
      assert once.store.items[PhotoKey := photoUri.value] == once.store.items;
    }
    assert twice.store.items == once.store.items;
  }
}

=== FILE: style_image.dfy ===
/** How a style preview travels between screens as a route parameter: the
    style selector turns it into a string (app/style-selector.js:105-107) and
    the description screen turns the string back into an image source
    (app/screens/DescriptionScreen.js:160-173). */
module StyleImage {
  import opened Js
  import opened Json
  import opened UriEncoding
  import opened Catalog

  /** `typeof image === 'string' ? image : JSON.stringify(image)`, where an
      absent image (`undefined`) stringifies to `undefined`. */
  function Serialize(image: Option<ImageRef>): (r: Option<string>)
    ensures image.None? <==> r.None?
    // a string is passed through unchanged
    ensures image.Some? && image.value.Url? ==> r == Some(image.value.url)
    // an asset number is printed as its canonical decimal text
    ensures image.Some? && image.value.Asset? ==>
              r.Some? && IsNatText(r.value) && ParseNat(r.value) == image.value.id
  {
    match image
    case None => None
    case Some(Url(u)) => Some(u)
    case Some(Asset(n)) =>
      ParseNatToString(n);
      Some(NatToString(n))
  }

  /** What `<Image source=...>` receives: a `{uri}` object, a bundled asset
      number, or some other parsed JSON value (kept as its text). */
  datatype Source = UriSource(uri: string) | AssetSource(id: nat) | JsonSource(text: string)

  const PreviewPlaceholderBase: string := "https://via.placeholder.com/300x300?text="

  /** `getStyleImageSource()`: a placeholder when the parameter is falsy, the
      parsed value when it is JSON, and `{uri: styleImage}` when parsing throws. */
  function Decode(styleImage: Option<string>, selectedStyle: Option<string>): (r: Source)
    ensures !Truthy(styleImage) ==>
              && r.UriSource?
              && PreviewPlaceholderBase <= r.uri
              && r.uri[|PreviewPlaceholderBase|..] == EncodeUriComponent(Show(selectedStyle))
    ensures Truthy(styleImage) ==> (r == UriSource(styleImage.value) <==> !IsJson(styleImage.value))
    ensures r.AssetSource? ==> Truthy(styleImage) && IsNatText(styleImage.value)
    ensures r.JsonSource? ==> r.text == styleImage.value && IsJson(r.text)
  {
    if !Truthy(styleImage) then
      UriSource(PreviewPlaceholderBase + EncodeUriComponent(Show(selectedStyle)))
    else
      var v := styleImage.value;
      if !IsJson(v) then UriSource(v)
      else if IsNatText(v) then AssetSource(ParseNat(v))
      else JsonSource(v)
  }

  /** The source a preview is meant to show. */
  function Intended(image: ImageRef): Source {
    match image
    case Url(u) => UriSource(u)
    case Asset(n) => AssetSource(n)
  }

  /** A bundled asset survives the trip whatever the style name. */
  lemma RoundTripAsset(n: nat, selectedStyle: Option<string>)
    ensures Decode(Serialize(Some(Asset(n))), selectedStyle) == AssetSource(n)
  {
    var v := NatToString(n);
    NatTextIsJson(v);
    ParseNatToString(n);
  }

  /** A non-empty URL survives the trip exactly when it is not itself a JSON
      text. */
  lemma RoundTripUrl(u: string, selectedStyle: Option<string>)
    requires u != ""
    ensures Decode(Serialize(Some(Url(u))), selectedStyle) == UriSource(u) <==> !IsJson(u)
  {
  }

  /** The side condition is needed: a URL string that reads as a number is
      indistinguishable from an asset after serialisation. */
  lemma UrlThatLooksLikeAsset()
    ensures Serialize(Some(Url("7"))) == Serialize(Some(Asset(7)))
    ensures Decode(Serialize(Some(Url("7"))), None) == AssetSource(7)
  {
    assert NatToString(7) == "7";
    RoundTripAsset(7, None);
  }

  /** Serialising a value that is already a serialised string changes
      nothing, so re-passing a parameter through the selector is stable. */
  lemma SerializeStable(image: Option<ImageRef>)
    requires Serialize(image).Some?
    ensures Serialize(Some(Url(Serialize(image).value))) == Serialize(image)
  {
  }

  /** A placeholder-service URL starts with `h`, which cannot begin a JSON
      value. */
  lemma PlaceholderNotJson(u: string)
    requires PlaceholderBase <= u
    ensures !IsJson(u)
  {
    assert u[0] == 'h';
    assert SkipWs(u, 0) == 0;
    NotJsonByFirstChar(u);
  }

  /** Every catalog preview, URL or asset, is recovered by the description
      screen from what the selector passes on. */
  lemma {:induction false} CatalogRoundTrip(e: Entry)
    requires e in AllEntries
    ensures Decode(Serialize(Some(e.image)), Some(e.name)) == Intended(e.image)
  {
    AllWellFormed();
    match e.image
    case Asset(n) => RoundTripAsset(n, Some(e.name));
    case Url(u) => PlaceholderNotJson(u);
  }
}

=== FILE: style_selector.dfy ===
/** The expo-router style picker (app/style-selector.js): a tap on a tile
    commits the style and moves on to the description screen; "Change
    photo" and "Back" carry the current draft along. */
module StyleSelector {
  import opened Js
  import opened Storage
  import opened Router
  import opened Catalog
  import opened StyleImage

  /** The parameters the screen reads. */
  datatype Args = Args(photoUri: Option<string>, returnTo: Option<string>,
                       existingStyle: Option<string>, existingStyleImage: Option<string>)

  function Read(p: Params): Args {
    Args(Arg(p, "photoUri"), Arg(p, "returnTo"), Arg(p, "existingStyle"), Arg(p, "existingStyleImage"))
  }

  /** `selectedStyle`: a name and its preview, as a catalog value or as the
      string a previous screen passed on. */
  datatype Selection = Selection(name: string, image: Option<ImageRef>)

  datatype State = State(args: Args, selected: Option<Selection>)

  /** A parameter string held as a preview value (a string stays a string). */
  function FromParam(v: Option<string>): Option<ImageRef> {
    match v
    case None => None
    case Some(u) => Some(Url(u))
  }

  /** The screen as mounted: a selection exists iff `existingStyle` is truthy. */
  function Open(p: Params): (s: State)
    ensures s.args == Read(p)
    ensures s.selected.Some? <==> Truthy(Arg(p, "existingStyle"))
    ensures s.selected.Some? ==>
              && s.selected.value.name == Arg(p, "existingStyle").value
              && Serialize(s.selected.value.image) == Arg(p, "existingStyleImage")
  {
    var a := Read(p);
    if Truthy(a.existingStyle) then State(a, Some(Selection(a.existingStyle.value, FromParam(a.existingStyleImage))))
    else State(a, None)
  }

  /** `hasPhotoAndStyle`. */
  predicate HasPhotoAndStyle(s: State) {
    Truthy(s.args.photoUri) && s.selected.Some?
  }

  /** The serialised preview of the selection, null when there is none. */
  function ImageParam(sel: Option<Selection>): Option<string> {
    if sel.None? then None else Serialize(sel.value.image)
  }

  function NameParam(sel: Option<Selection>): Option<string> {
    if sel.None? then None else Some(sel.value.name)
  }

  datatype Selected = Selected(state: State, nav: Nav)

  /** `handleStyleSelect` on a tile: select it and go to the description
      screen at once. */
  function SelectStyle(s: State, e: Entry): (r: Selected)
    ensures r.state.args == s.args
    ensures r.state.selected == Some(Selection(e.name, Some(e.image)))
    ensures r.nav.path == DescriptionPath
    ensures Arg(r.nav.params, "photoUri") == s.args.photoUri
    ensures Arg(r.nav.params, "selectedStyle") == Some(e.name)
    ensures Arg(r.nav.params, "styleImage") == Serialize(Some(e.image))
  {
    Selected(State(s.args, Some(Selection(e.name, Some(e.image)))),
             Push(DescriptionPath, map["photoUri" := s.args.photoUri,
                                       "selectedStyle" := Some(e.name),
                                       "styleImage" := Serialize(Some(e.image))]))
  }

  /** `handlePhotoPress`, as written: the style travels under the names
      `existingStyle`/`existingStyleImage`. */
  function PhotoPress(s: State): (nav: Nav)
    ensures nav.path == UploadPath
    ensures Arg(nav.params, "returnTo") == Some("style-selector")
    ensures Arg(nav.params, "existingPhotoUri") == s.args.photoUri
    ensures Arg(nav.params, "existingStyle") == NameParam(s.selected)
    ensures Arg(nav.params, "existingStyleImage") == ImageParam(s.selected)
    // the names the upload screen reads for the style are not passed
    ensures "selectedStyle" !in nav.params && "styleImage" !in nav.params
  {
    Push(UploadPath, map["returnTo" := Some("style-selector"),
                         "existingPhotoUri" := s.args.photoUri,
                         "existingStyle" := NameParam(s.selected),
                         "existingStyleImage" := ImageParam(s.selected)])
  }

  /** `handlePhotoPress` as evidently intended: the style travels under the
      names the upload screen reads. */
  function PhotoPressCorrected(s: State): (nav: Nav)
    ensures nav.path == UploadPath
    ensures Arg(nav.params, "returnTo") == Some("style-selector")
    ensures Arg(nav.params, "existingPhotoUri") == s.args.photoUri
    ensures Arg(nav.params, "selectedStyle") == NameParam(s.selected)
    ensures Arg(nav.params, "styleImage") == ImageParam(s.selected)
  {
    Push(UploadPath, map["returnTo" := Some("style-selector"),
                         "existingPhotoUri" := s.args.photoUri,
                         "selectedStyle" := NameParam(s.selected),
                         "styleImage" := ImageParam(s.selected)])
  }

  /** `handleBack`. */
  function Back(s: State): (a: Action)
    // with photo and style: back to the preview, carrying both, no save
    ensures HasPhotoAndStyle(s) ==>
              && a.Go? && a.nav.path == DescriptionPath
              && Arg(a.nav.params, "photoUri") == s.args.photoUri
              && Arg(a.nav.params, "selectedStyle") == NameParam(s.selected)
              && Arg(a.nav.params, "styleImage") == ImageParam(s.selected)
    // otherwise: home, checkpointing first iff there is a photo
    ensures !HasPhotoAndStyle(s) && Truthy(s.args.photoUri) ==>
              a == SaveThenGo(Draft(s.args.photoUri, NameParam(s.selected), ImageParam(s.selected)), GoHome)
    ensures !HasPhotoAndStyle(s) && !Truthy(s.args.photoUri) ==> a == Go(GoHome)
  {
    if HasPhotoAndStyle(s) then
      Go(Push(DescriptionPath, map["photoUri" := s.args.photoUri,
                                   "selectedStyle" := NameParam(s.selected),
                                   "styleImage" := ImageParam(s.selected)]))
    else if Truthy(s.args.photoUri) then
      SaveThenGo(Draft(s.args.photoUri, NameParam(s.selected), ImageParam(s.selected)), GoHome)
    else Go(GoHome)
  }

  function BackLabel(s: State): string {
    if HasPhotoAndStyle(s) then "Back to Preview" else "Back to Start"
  }

  /** The back button's title names where it leads, and the "Back to
      Start" path is the only one that may checkpoint. */
  lemma BackLabelMatches(s: State)
    ensures BackLabel(s) == "Back to Preview" <==> (Back(s).Go? && Back(s).nav.path == DescriptionPath)
    ensures Back(s).SaveThenGo? ==> BackLabel(s) == "Back to Start"
  {
  }

  /** `selectedStyle && selectedStyle.name === name`. */
  predicate Highlighted(s: State, name: string) {
    s.selected.Some? && s.selected.value.name == name
  }

  /** At most one catalog tile is highlighted. */
  lemma OneHighlight(s: State, i: nat, j: nat)
    requires i < |AllEntries| && j < |AllEntries|
    requires Highlighted(s, AllEntries[i].name) && Highlighted(s, AllEntries[j].name)
    ensures i == j
  {
    NamesDistinct();
  }

  /** After a tap the tapped tile, and only it, is highlighted. */
  lemma SelectHighlights(s: State, e: Entry, name: string)
    ensures Highlighted(SelectStyle(s, e).state, name) <==> name == e.name
  {
  }
}

=== FILE: upload_photo.dfy ===
/** The photo screen (app/screens/UploadPhotoScreen.js): pick or take a
    photo, then continue to the style selector, or back to the description
    screen when it was opened from there. */
module UploadPhoto {
  import opened Js
  import opened Storage
  import opened Router
  import opened Picker

  /** The parameters the screen reads. */
  datatype Args = Args(returnTo: Option<string>, selectedStyle: Option<string>,
                       styleImage: Option<string>, existingPhotoUri: Option<string>)

  function Read(p: Params): Args {
    Args(Arg(p, "returnTo"), Arg(p, "selectedStyle"), Arg(p, "styleImage"), Arg(p, "existingPhotoUri"))
  }

  datatype State = State(args: Args, photoUri: Option<string>)

  /** `useState(existingPhotoUri || null)`. */
  function Open(p: Params): (s: State)
    ensures s.args == Read(p)
    ensures Truthy(Arg(p, "existingPhotoUri")) ==> s.photoUri == Arg(p, "existingPhotoUri")
    ensures !Truthy(Arg(p, "existingPhotoUri")) ==> s.photoUri.None?
  {
    var a := Read(p);
    State(a, if Truthy(a.existingPhotoUri) then a.existingPhotoUri else None)
  }

  /** `pickImage`, given the library picker's outcome (`takePhoto` handles
      the camera's outcome the same way): a successful pick takes the first asset's URI;
      a cancel, a failure, or an empty asset list (where `assets[0].uri`
      throws into the catch) leaves the photo as it was. */
  function Picked(s: State, r: PickerResult): (t: State)
    ensures t.args == s.args
    ensures r.Picked? && |r.assets| > 0 ==> t.photoUri == Some(r.assets[0])
    ensures !(r.Picked? && |r.assets| > 0) ==> t == s
  {
    match r
    case Picked(assets) => if |assets| > 0 then State(s.args, Some(assets[0])) else s
    case _ => s
  }


  datatype Taken = Taken(state: State, action: Action)

  /** `takePhoto`: a denied camera permission raises an alert and changes
      nothing. */
  function TakePhoto(s: State, granted: bool, r: PickerResult): (t: Taken)
    ensures !granted ==> t.state == s && t.action.Alert?
    ensures granted ==> t.state == Picked(s, r) && t.action == NoAction
  {
    if !granted then Taken(s, Alert("Permission needed", "Camera permission is required to take photos"))
    else Taken(Picked(s, r), NoAction)
  }

  /** Opened from the description screen with a style to go back to. */
  predicate ReturnsToDescription(s: State) {
    s.args.returnTo == Some("description") && Truthy(s.args.selectedStyle) && Truthy(s.args.styleImage)
  }

  /** `handleContinue`. */
  function Continue(s: State): (a: Action)
    ensures !Truthy(s.photoUri) ==> a == Alert("Photo Required", "Please select or take a photo to continue")
    ensures Truthy(s.photoUri) ==> a.Go? && Arg(a.nav.params, "photoUri") == s.photoUri
    ensures Truthy(s.photoUri) && ReturnsToDescription(s) ==>
              && a.nav.path == DescriptionPath
              && Arg(a.nav.params, "selectedStyle") == s.args.selectedStyle
              && Arg(a.nav.params, "styleImage") == s.args.styleImage
    ensures Truthy(s.photoUri) && !ReturnsToDescription(s) ==>
              && a.nav.path == SelectorPath
              && Arg(a.nav.params, "existingStyle") == s.args.selectedStyle
              && Arg(a.nav.params, "existingStyleImage") == s.args.styleImage
  {
    if Truthy(s.photoUri) then
      if ReturnsToDescription(s) then
        Go(Push(DescriptionPath, map["photoUri" := s.photoUri,
                                     "selectedStyle" := s.args.selectedStyle,
                                     "styleImage" := s.args.styleImage]))
      else
        Go(Push(SelectorPath, map["photoUri" := s.photoUri,
                                  "existingStyle" := s.args.selectedStyle,
                                  "existingStyleImage" := s.args.styleImage]))
    else Alert("Photo Required", "Please select or take a photo to continue")
  }

  /** `handleBackToStart` (no button of the screen calls it). */
  function BackToStart(s: State): (a: Action)
    ensures Truthy(s.photoUri) ==>
              a == SaveThenGo(Draft(s.photoUri, s.args.selectedStyle, s.args.styleImage), GoHome)
    ensures !Truthy(s.photoUri) ==> a == Go(GoHome)
  {
    if Truthy(s.photoUri) then SaveThenGo(Draft(s.photoUri, s.args.selectedStyle, s.args.styleImage), GoHome)
    else Go(GoHome)
  }

  /** `handleBack`: in the edit flow, back to the description screen with
      the photo it had, dropping any new pick; otherwise home, without saving. */
  function Back(s: State): (a: Action)
    ensures a.Go?
    ensures ReturnsToDescription(s) ==>
              && a.nav.path == DescriptionPath
              && Arg(a.nav.params, "photoUri") == s.args.existingPhotoUri
              && Arg(a.nav.params, "selectedStyle") == s.args.selectedStyle
              && Arg(a.nav.params, "styleImage") == s.args.styleImage
    ensures !ReturnsToDescription(s) ==> a.nav == GoHome
  {
    if ReturnsToDescription(s) then
      Go(Push(DescriptionPath, map["photoUri" := s.args.existingPhotoUri,
                                   "selectedStyle" := s.args.selectedStyle,
                                   "styleImage" := s.args.styleImage]))
    else Go(GoHome)
  }

  function BackLabel(s: State): string {
    if ReturnsToDescription(s) then "Back to Preview" else "Back to Start"
  }

  /** The back button's title names where it leads. */
  lemma BackLabelMatches(s: State)
    ensures BackLabel(s) == "Back to Preview" <==> Back(s).nav.path == DescriptionPath
    ensures BackLabel(s) == "Back to Start" <==> Back(s).nav.path == HomePath
  {
  }

  /** Back never depends on the photo picked on this screen. */
  lemma BackIgnoresPick(s: State, r: PickerResult)
    ensures Back(Picked(s, r)) == Back(s)
  {
  }
}

=== FILE: uri_encoding.dfy ===
/** `encodeURIComponent`, as section 18.2.6.5 of ECMA-262 (8th edition) defines it: every
    character outside the unreserved set becomes the `%XX` escapes of its
    UTF-8 bytes, upper-case hex. Dafny characters are Unicode scalar values,
    so the lone-surrogate error case cannot arise. */
module UriEncoding {
  import opened Js

  /** The characters `encodeURIComponent` leaves as they are. */
  predicate Unreserved(c: char) {
    || 'A' <= c <= 'Z' || 'a' <= c <= 'z' || '0' <= c <= '9'
    || c == '-' || c == '_' || c == '.' || c == '!' || c == '~'
    || c == '*' || c == '\'' || c == '(' || c == ')'
  }

  predicate IsUpperHex(c: char) {
    '0' <= c <= '9' || 'A' <= c <= 'F'
  }

  /** A character that may appear in an encoded component. */
  predicate Encoded(c: char) {
    Unreserved(c) || c == '%'
  }

  /** The upper-case hex digit of a value below 16. */
  function HexDigit(d: nat): (c: char)
    requires d < 16
    ensures IsUpperHex(c)
  {
    if d < 10 then ('0' as int + d) as char else ('A' as int + d - 10) as char
  }

  function Escape(b: nat): (r: string)
    requires b < 256
    ensures |r| == 3 && r[0] == '%' && IsUpperHex(r[1]) && IsUpperHex(r[2])
  {
    ['%', HexDigit(b / 16), HexDigit(b % 16)]
  }

  /** The UTF-8 bytes of one scalar value. */
  function Utf8(c: char): (bytes: seq<nat>)
    ensures 1 <= |bytes| <= 4
    ensures forall k :: 0 <= k < |bytes| ==> bytes[k] < 256
  {
    var cp := c as int;
    if cp < 0x80 then [cp]
    else if cp < 0x800 then [0xC0 + cp / 0x40, 0x80 + cp % 0x40]
    else if cp < 0x10000 then [0xE0 + cp / 0x1000, 0x80 + (cp / 0x40) % 0x40, 0x80 + cp % 0x40]
    else [0xF0 + cp / 0x40000, 0x80 + (cp / 0x1000) % 0x40, 0x80 + (cp / 0x40) % 0x40, 0x80 + cp % 0x40]
  }

  function EscapeAll(bytes: seq<nat>): (r: string)
    requires forall k :: 0 <= k < |bytes| ==> bytes[k] < 256
    ensures |r| == 3 * |bytes|
    // the k-th three characters are the escape of the k-th byte
    ensures forall k :: 0 <= k < |bytes| ==> r[3 * k..3 * k + 3] == Escape(bytes[k])
    ensures forall k :: 0 <= k < |r| ==> Encoded(r[k]) || IsUpperHex(r[k])
  {
    if |bytes| == 0 then "" else
      var rest := EscapeAll(bytes[1..]);
      var r := Escape(bytes[0]) + rest;
      assert forall k :: 1 <= k < |bytes| ==> r[3 * k..3 * k + 3] == rest[3 * (k - 1)..3 * (k - 1) + 3];
      r
  }

  function EncodeChar(c: char): (r: string)
    ensures Unreserved(c) ==> r == [c]
    // otherwise: one upper-case `%XX` escape per UTF-8 byte
    ensures !Unreserved(c) ==>
              && |r| == 3 * |Utf8(c)|
              && forall k :: 0 <= k < |Utf8(c)| ==> r[3 * k..3 * k + 3] == Escape(Utf8(c)[k])
    ensures forall k :: 0 <= k < |r| ==> Encoded(r[k]) || IsUpperHex(r[k])
  {
    if Unreserved(c) then [c] else EscapeAll(Utf8(c))
  }

  /** `encodeURIComponent(s)`. */
  function EncodeUriComponent(s: string): (r: string)
    // only unreserved characters and `%` come out
    ensures forall k :: 0 <= k < |r| ==> Encoded(r[k])
    // nothing gets shorter
    ensures |r| >= |s|
    // a text of unreserved characters passes through unchanged
    ensures (forall k :: 0 <= k < |s| ==> Unreserved(s[k])) ==> r == s
  {
    if |s| == 0 then "" else EncodeChar(s[0]) + EncodeUriComponent(s[1..])
  }

  /** Encoding works character by character, so it distributes over
      concatenation. */
  lemma {:induction false} EncodeAppend(a: string, b: string)
    ensures EncodeUriComponent(a + b) == EncodeUriComponent(a) + EncodeUriComponent(b)
  {
    if |a| > 0 {
      assert (a + b)[1..] == a[1..] + b;
      EncodeAppend(a[1..], b);
    } else {
      assert a + b == b;
    }
  }

  /** The value of an upper-case hex digit. */
  function HexValue(c: char): (v: nat)
    requires IsUpperHex(c)
    ensures v < 16 && HexDigit(v) == c
  {
    if '0' <= c <= '9' then (c as int - '0' as int) else (c as int - 'A' as int + 10)
  }

  /** Reading an encoded component back into bytes: each `%XX` is one byte,
      each unreserved character its own (ASCII) byte; anything else, such as
      a `%` not followed by two hex digits, is malformed. */
  function PercentDecode(r: string): Option<seq<nat>>
    decreases |r|
  {
    if |r| == 0 then Some([])
    else if r[0] == '%' then
      if |r| >= 3 && IsUpperHex(r[1]) && IsUpperHex(r[2]) then
        Prepend(16 * HexValue(r[1]) + HexValue(r[2]), PercentDecode(r[3..]))
      else None
    else if Unreserved(r[0]) then Prepend(r[0] as nat, PercentDecode(r[1..]))
    else None
  }

  function Prepend(b: nat, rest: Option<seq<nat>>): Option<seq<nat>> {
    match rest
    case None => None
    case Some(t) => Some([b] + t)
  }

  /** The UTF-8 bytes of a whole string. */
  function Utf8Text(s: string): seq<nat>
    decreases |s|
  {
    if |s| == 0 then [] else Utf8(s[0]) + Utf8Text(s[1..])
  }

  function PrependAll(bytes: seq<nat>, rest: Option<seq<nat>>): Option<seq<nat>> {
    match rest
    case None => None
    case Some(t) => Some(bytes + t)
  }

  lemma DecodeEscape(b: nat, rest: string)
    requires b < 256
    ensures PercentDecode(Escape(b) + rest) == Prepend(b, PercentDecode(rest))
  {
    var e := Escape(b) + rest;
    assert e[0] == '%' && e[1] == HexDigit(b / 16) && e[2] == HexDigit(b % 16);
    assert e[3..] == rest;
  }

  lemma {:induction false} DecodeEscapeAll(bytes: seq<nat>, rest: string)
    requires forall k :: 0 <= k < |bytes| ==> bytes[k] < 256
    ensures PercentDecode(EscapeAll(bytes) + rest) == PrependAll(bytes, PercentDecode(rest))
    decreases |bytes|
  {
    if |bytes| == 0 {
      assert EscapeAll(bytes) + rest == rest;
      match PercentDecode(rest)
      case None =>
      case Some(t) => assert bytes + t == t;
    } else {
      var tail := EscapeAll(bytes[1..]);
      assert EscapeAll(bytes) + rest == Escape(bytes[0]) + (tail + rest);
      DecodeEscape(bytes[0], tail + rest);
      DecodeEscapeAll(bytes[1..], rest);
      match PercentDecode(rest)
      case None =>
      case Some(t) => assert [bytes[0]] + (bytes[1..] + t) == bytes + t;
    }
  }

  /** `encodeURIComponent` is the percent-encoding of the UTF-8 bytes of its
      argument: decoding its output gives back exactly those bytes. */
  lemma {:induction false} DecodeEncode(s: string)
    ensures PercentDecode(EncodeUriComponent(s)) == Some(Utf8Text(s))
    decreases |s|
  {
    if |s| > 0 {
      var c := s[0];
      var rest := EncodeUriComponent(s[1..]);
      DecodeEncode(s[1..]);
      if Unreserved(c) {
        assert EncodeUriComponent(s) == [c] + rest;
        assert ([c] + rest)[1..] == rest;
        assert Utf8(c) == [c as nat];
      } else {
        assert EncodeUriComponent(s) == EscapeAll(Utf8(c)) + rest;
        DecodeEscapeAll(Utf8(c), rest);
      }
    }
  }

  lemma EncodeSpace()
    ensures EncodeUriComponent(" ") == "%20"
  {
    assert Utf8(' ') == [32];
    assert EscapeAll([32]) == Escape(32) + EscapeAll([]);
    assert Escape(32) == "%20";
  }

  lemma EncodeWord()
    ensures EncodeUriComponent("Pop") == "Pop"
    ensures EncodeUriComponent("Art") == "Art"
  {
    assert forall k :: 0 <= k < 3 ==> Unreserved("Pop"[k]);
    assert forall k :: 0 <= k < 3 ==> Unreserved("Art"[k]);
  }

  /** A space becomes `%20`: the catalog's two-word style names are encoded
      around it, as in `Pop%20Art`. */
  lemma EncodeTwoWords()
    ensures EncodeUriComponent("Pop Art") == "Pop%20Art"
  {
    assert "Pop Art" == "Pop" + (" " + "Art");
    EncodeAppend("Pop", " " + "Art");
    EncodeAppend(" ", "Art");
    EncodeSpace();
    EncodeWord();
    assert "Pop" + ("%20" + "Art") == "Pop%20Art";
  }
}
